=== FILE: README.md ===
# Interview session engine — Dafny model

This project models the session engine of an AI interview backend. A
candidate answers up to six questions over a WebSocket. Each question has a
countdown taken from its difficulty: easy 20 s, medium 60 s, hard 120 s.
Between messages, the live session sits in a Redis cache under the key
`interview:<id>`.

The model covers three parts:

- **The session state machine (`InterviewManager`), in both builds.**
  - The TypeScript source (`SrcManager`): `answer` moves the cursor on and completes the session at the end.
  - The compiled JavaScript (`DistManager`): `answer` only records the answer. `addQuestion` grows the session idempotently up to six questions.
  - The status guards shared by both builds (`Lifecycle`): `getCurrentQuestion`, `pause`, `resume`, `submit`.
- **The cache adapter (`SessionCache`).** A snapshot holds questions, user, status and cursor. Loading rebuilds a manager through a constructor and then restores status and cursor. The two constructors differ: the source one resets every timer, the compiled one keeps a saved timer.
- **The protocol handlers (`SrcHandler`, `DistHandler`).** Each inbound frame, and each one-second firing of the connection's interval, is a pure step. A step maps the connection fields and the cache to new ones plus the list of messages sent. Wire names of the client message kinds are in `Protocol`.

Outside effects are inputs of a step:

- Token verification in the source handler's AUTH: the verified user id, or nothing.
- In the compiled handler, what the question generator and the database return (`DistHandler.Outcomes`).

The main properties proved:

- **Cache round trips.** Saving then loading through the compiled constructor keeps every saved timer and gives a missing one its table time, so it returns the exact session when every question carries a timer. Through the source constructor it returns the session with every timer reset; this is exact exactly when the timers already hold their table values. Keys of distinct ids never collide, and `clearAll` removes exactly the `interview:*` keys.
- **State machine.** Pause and resume are inverse. `getCurrentQuestion` is idempotent. `addQuestion` is idempotent and keeps the cap of six and the distinct ids. The source report's total equals the sum of its rows.
- **Handler invariants.**
  - No source-build handler or tick creates a cache entry, changes a session's question count, or moves a cursor out of range.
  - In the compiled build, no history of frames and ticks ever produces a cached session with more than six questions or repeated ids.
- **Timers.** The countdown behaviour of each build's interval, including the three defects listed under Findings.

## Model

| member | source | states |
|---|---|---|
| InterviewTypes.DifficultyTime | backend/src/utils/interviewManager.ts:3-7 | the table of seconds per difficulty: easy exactly 20, medium exactly 60, hard exactly 120 |
| Lifecycle.GetCurrentQuestion | backend/src/utils/interviewManager.ts:55-71 | completed or paused: nothing changes and no question; ready starts the session; with a question at the cursor it is returned in progress, otherwise the session is forced to completed; a question comes back iff ready/in progress with the cursor in range |
| Lifecycle.Pause | backend/src/utils/interviewManager.ts:77-81 | only an in-progress session becomes paused; every other status is untouched |
| Lifecycle.Resume | backend/src/utils/interviewManager.ts:83-87 | only a paused session returns to in progress |
| Lifecycle.Submit | backend/src/utils/interviewManager.ts:89-91 | completes the session from any status, keeping questions, cursor and user |
| Lifecycle.PauseResumeInverse | backend/src/utils/interviewManager.ts:77-87 | resume undoes pause on an in-progress session and pause undoes resume on a paused one; both are no-ops when ready or completed |
| Lifecycle.GetCurrentQuestionIdempotent | backend/src/utils/interviewManager.ts:55-71 | a second call returns the same question and changes nothing further |
| Lifecycle.TransitionsKeepQuestions | backend/dist/utils/interviewManager.js:34-64 | the guarded transitions never touch the question list or the cursor |
| SrcManager.New | backend/src/utils/interviewManager.ts:15-23 | ready, cursor 0, same user; every question keeps its content and gets its table time, whatever timer it carried |
| SrcManager.DecrementTimer | backend/src/utils/interviewManager.ts:25-35 | returns 0 and changes nothing unless in progress with a current question; otherwise a positive timer drops by exactly one, the result is the new time, and nothing else changes |
| SrcManager.DecrementTimerClamped | backend/src/utils/interviewManager.ts:31-34 | the countdown never makes a timer negative and never returns a negative time |
| SrcManager.Answer | backend/src/utils/interviewManager.ts:37-53 | without a current question nothing happens; otherwise answer, score and zero time are recorded, the cursor moves on, the next question is returned, or the session completes at the end; other questions are untouched |
| SrcManager.GetReport | backend/src/utils/interviewManager.ts:93-106 | user, status, an in-order projection of every question with a missing answer shown as "", and a total equal to the sum of the scores |
| SrcManager.ReportTotalMatchesRows | backend/src/utils/interviewManager.ts:97-104 | the report's total equals the sum of the scores in its own rows |
| SrcManager.RowsSum | backend/src/utils/interviewManager.ts:98-104 | summing the projected rows gives the sum over the questions |
| SrcManager.TotalScoreBounded | backend/src/utils/interviewManager.ts:97 | conditional only: if every per-question score lies in 0..10, the total lies in 0..10 per question; the handler stores whatever score the client sends, so the premise is not guaranteed |
| SrcManager.StepInvariant | backend/src/utils/interviewManager.ts:25-91 | every manager operation keeps the cursor in range and the question count fixed; only submit, or a cursor past the end, completes a session |
| SrcManager.CompletedIsAbsorbing | backend/src/utils/interviewManager.ts:25-91 | no manager operation leaves the completed state |
| DistManager.New | backend/dist/utils/interviewManager.js:15-23 | ready, cursor 0; a question with a timer is kept exactly, one without gets its table time; afterwards every question is timed |
| DistManager.NewKeepsTimedQuestions | backend/dist/utils/interviewManager.js:16-19 | the constructor is the identity on questions that all carry timers |
| DistManager.Answer | backend/dist/utils/interviewManager.js:24-33 | false and no change without a current question; otherwise answer, score, zero time and the answered flag are set, true is returned, and cursor, status and other questions stay |
| DistManager.AnswerKeepsIds | backend/dist/utils/interviewManager.js:24-33 | answering changes no id, so distinct ids stay distinct |
| DistManager.AnswerCount | backend/dist/utils/wsMessageHandler.js:45-48 | answering raises the answered count by one exactly when the current question was not yet answered |
| DistManager.Enriched | backend/dist/utils/interviewManager.js:86-89 | the stored question keeps its content and its own timer, else the table time |
| DistManager.AddQuestion | backend/dist/utils/interviewManager.js:79-93 | a known id changes nothing; a session of six changes nothing; otherwise the enriched question is appended, the cursor moves to it, and status and user stay |
| DistManager.AddQuestionIdempotent | backend/dist/utils/interviewManager.js:80-82 | adding the same question twice equals adding it once |
| DistManager.AddQuestionKeepsValid | backend/dist/utils/interviewManager.js:83-91 | the cap of six, distinct ids and cursor range survive; the old list is a prefix of the new; at most one question is added |
| DistManager.GetReport | backend/dist/utils/interviewManager.js:65-77 | status and an in-order projection of each question, with its type, and "" for a missing answer |
| DistManager.StepInvariant | backend/dist/utils/interviewManager.js:24-93 | every manager operation keeps the session valid; only submit, or a current-question read past the end, completes it |
| DistManager.ApplyAllValid | backend/dist/utils/interviewManager.js:83-85 | over any sequence of operations the session stays valid and never holds more than six questions |
| SessionCache.Key | backend/src/lib/redis.ts:46 | every interview key matches the `interview:*` pattern |
| SessionCache.KeyInjective | backend/src/lib/redis.ts:54 | distinct interview ids never share a key |
| SessionCache.ToSnapshot | backend/src/lib/redis.ts:38-43 | the snapshot holds exactly questions, user, status and cursor |
| SessionCache.Save | backend/src/lib/redis.ts:31-47 | writes the snapshot under the id's key and leaves every other key as it was |
| SessionCache.Load | backend/src/lib/redis.ts:50-66 | absent key gives nothing; otherwise saved status, cursor, user and question contents, every timer reset to its table value |
| SessionCache.LoadDist | backend/dist/utils/interviewManager.js:15-23 | the same rebuild through the compiled constructor: contents kept, each saved timer kept and a missing one replaced by its table time, so a list whose questions all carry timers comes back exactly |
| SessionCache.Delete | backend/src/lib/redis.ts:81-84 | removes exactly the id's key |
| SessionCache.ClearAll | backend/src/lib/redis.ts:69-78 | keeps exactly the keys outside the `interview:*` pattern, unchanged |
| SessionCache.SaveLoadRoundTrip | backend/src/lib/redis.ts:31-66 | save then load returns status, cursor, user and contents, with the source constructor's timers |
| SessionCache.SaveLoadExactIff | backend/src/lib/redis.ts:62-64 | the source round trip is exact if and only if every timer already equals its table value |
| SessionCache.SaveLoadDistRoundTrip | backend/dist/utils/interviewManager.js:16-19 | with the compiled constructor the round trip of a timed session is exact |
| SessionCache.OtherIdsUntouched | backend/src/lib/redis.ts:46 | saving or deleting one interview leaves every other interview's load unchanged |
| SessionCache.DeleteThenLoad | backend/src/lib/redis.ts:81-84 | after a delete, that interview loads as nothing |
| SessionCache.ClearAllThenLoad | backend/src/lib/redis.ts:69-78 | after clearing, no interview loads and keys outside the pattern survive |
| Protocol.SrcKindOf | backend/src/utils/messages.types.ts:2-11 | a decoded kind has exactly that wire name; no kind is decoded iff no kind has that name |
| Protocol.DistKindOf | backend/dist/utils/messages.types.js:5-14 | the same for the compiled names |
| Protocol.WireNamesRoundTrip | backend/dist/utils/messages.types.js:5-14 | decoding inverts the wire names of each build |
| Protocol.GetQuestionMismatch | backend/src/utils/messages.types.ts:9 | the builds agree on every name but the question request, which each build's handler rejects in the other's spelling |
| SrcHandler.Handle | backend/src/utils/wsMessageHandler.ts:11-309 | a malformed frame is answered "Invalid JSON format" and an unhandled type "Unknown message type: …", with nothing else changing |
| SrcHandler.HandleAuth | backend/src/utils/wsMessageHandler.ts:27-72 | a rejected token closes the socket with an error; an accepted one binds user and interview and leaves the socket open, sends AUTH_SUCCESS, then the current question iff there is one, arming a ticker only when none runs; the cache is never written |
| SrcHandler.HandleAnswer | backend/src/utils/wsMessageHandler.ts:169-208 | without interview or user, or without a cached session, one error and no change; otherwise the answer is recorded and persisted, then the next question is sent iff the session is ready or in progress with a question at the cursor, else the completed report, carrying the user, the summed total and status `completed`, or the unchanged status of a paused session |
| SrcHandler.HandlePause | backend/src/utils/wsMessageHandler.ts:210-223 | pauses and persists a cached session with one info message; silent otherwise |
| SrcHandler.HandleResume | backend/src/utils/wsMessageHandler.ts:225-244 | resumes and persists, sends the info message, then the current question iff there is one, and that second message is exactly that question |
| SrcHandler.HandleGetInterview | backend/src/utils/wsMessageHandler.ts:246-273 | reports the status read before the lazy start, the cursor and the current question, writing nothing; the not-in-memory error otherwise |
| SrcHandler.HandleGetQuestion | backend/src/utils/wsMessageHandler.ts:275-298 | reports only the current question and writes nothing |
| SrcHandler.Tick | backend/src/utils/wsMessageHandler.ts:72-160 | an idle ticker or a missing session does nothing; otherwise the decremented session is written back, and the ticker changes only at an expiry, where the inner ticker stops |
| SrcHandler.TickResetsCountdown | backend/src/utils/wsMessageHandler.ts:73-91 | on a live countdown a tick always saves the table time minus one, whatever was saved, and sends one time update |
| SrcHandler.LoadIgnoresTimers | backend/src/lib/redis.ts:62-64 | two snapshots that differ only in saved timers load as the same session |
| SrcHandler.TickIsStationary | backend/src/utils/wsMessageHandler.ts:72-91 | the outcome of a tick on a live countdown is a fixed point of the tick, so the countdown never advances |
| SrcHandler.TickCorrected | backend/src/utils/wsMessageHandler.ts:72-150 | corrected ticker: idle or missing session does nothing |
| SrcHandler.TickCorrectedCountsDown | backend/src/utils/wsMessageHandler.ts:76-91 | corrected ticker: with more than one second left exactly one second is taken off and one update sent |
| SrcHandler.TickCorrectedExpires | backend/src/utils/wsMessageHandler.ts:94-107 | corrected ticker: at the last second the empty zero-score answer is recorded and the cursor moves on; the tick sends time 0 for the expired question, then either the next question, keeping the ticker armed, or at the last question the report of the completed stored session, stopping the ticker |
| SrcHandler.OuterTickerAnswersReadySession | backend/src/utils/wsMessageHandler.ts:75-101 | as written, the first tick over an entry cached as ready counts as expiry: the first question is saved with answer "", the cursor moves to the second, the tick sends the first question's full table time and then the second question, and the inner ticker is armed |
| SrcHandler.InnerTickerDoesNotRearm | backend/src/utils/wsMessageHandler.ts:109-150 | as written, the inner ticker's expiry sends the time and then the next question, and leaves no ticker running; shown on a state the handler cannot reach by itself, so the defect is latent |
| SrcHandler.HandleKeepsStore | backend/src/utils/wsMessageHandler.ts:169-244 | no inbound frame creates a cache entry, changes a session's question count or user, or moves a cursor out of range |
| SrcHandler.TickKeepsStore | backend/src/utils/wsMessageHandler.ts:72-160 | the same for a tick, as written and corrected |
| DistHandler.Created | backend/dist/utils/wsMessageHandler.js:60-70 | a created question carries the generated id, text, difficulty and type, an empty answer, score 0, unanswered, no timer |
| DistHandler.ExpiryAnswer | backend/dist/utils/wsMessageHandler.js:361-364 | the frame sent on expiry decodes as an ANSWER whose payload names the interview, with answer "" and score 0 |
| DistHandler.StartTimer | backend/dist/utils/wsMessageHandler.js:320-327 | any running interval is cleared; a new one capturing the freshly loaded manager starts iff the session is cached |
| DistHandler.Handle | backend/dist/utils/wsMessageHandler.js:11-317 | malformed text and unhandled types (AUTH and HEARTBEAT among them) draw one error only on an authenticated socket, changing nothing |
| DistHandler.HandleAnswer | backend/dist/utils/wsMessageHandler.js:26-100 | the not-authenticated and not-found errors; below six answered a generated question is added, persisted, sent and timed, or nothing more without one; at six the cache entry is removed and the report sent |
| DistHandler.HandlePause | backend/dist/utils/wsMessageHandler.js:101-115 | silent without id or user; pauses and persists a cached session with one info message |
| DistHandler.HandleResume | backend/dist/utils/wsMessageHandler.js:116-137 | resumes and persists, sends the info message, then the current question iff there is one, and that second message is exactly that question |
| DistHandler.HandleGetInterview | backend/dist/utils/wsMessageHandler.js:138-159 | reports status, cursor and current question without writing; the not-in-memory error otherwise |
| DistHandler.NextRecord | backend/dist/utils/wsMessageHandler.js:210-241 | the stored unanswered question if any, else the created generated one, else nothing |
| DistHandler.Reopen | backend/dist/utils/wsMessageHandler.js:247-253 | a completed session is reopened and a cursor past the end pulled back to the last question |
| DistHandler.HandleGetQuestion | backend/dist/utils/wsMessageHandler.js:161-266 | a completed cached session or a completed stored interview is reported; an existing current question is re-sent and timed without writing |
| DistHandler.HandleGetAnswered | backend/dist/utils/wsMessageHandler.js:268-308 | exactly one reply to the asking socket (error or the answered list); cache and timer untouched |
| DistHandler.Tick | backend/dist/utils/wsMessageHandler.js:327-366 | with no interval running nothing happens |
| DistHandler.TickReloading | backend/dist/utils/wsMessageHandler.js:320-366 | corrected interval: it stops without touching the cache once the entry is gone |
| DistHandler.TickIgnoresStaleQuestion | backend/dist/utils/wsMessageHandler.js:328-330 | when the captured manager has no current question, or its current question is not the armed one, a tick writes and sends nothing; only the captured copy's lazy start is kept |
| DistHandler.TickReloadingIgnoresStaleQuestion | backend/dist/utils/wsMessageHandler.js:328-330 | the same no-op for the corrected interval, judged on the manager read from the cache |
| DistHandler.AddReopenValid | backend/dist/utils/wsMessageHandler.js:245-253 | adding then reopening keeps the session valid, because the list is never empty after an add |
| DistHandler.HandleKeepsInvariants | backend/dist/utils/wsMessageHandler.js:11-317 | no inbound frame lets a cached session exceed six questions, repeat an id or leave its cursor range, and a started interval holds such a session |
| DistHandler.TickKeepsInvariants | backend/dist/utils/wsMessageHandler.js:327-366 | the same for a tick, as written and corrected |
| DistHandler.RunKeepsInvariants | backend/dist/utils/wsMessageHandler.js:11-367 | over any history of frames and ticks no cached interview holds more than six questions |
| DistHandler.FirstQuestionOfEmptySession | backend/dist/utils/wsMessageHandler.js:199-265 | on an empty ready session with a generated question, the session ends with exactly that question, timed from the table, in progress at 0; it is sent and its timer started |
| DistHandler.CompletedIsReportedAgain | backend/dist/utils/wsMessageHandler.js:168-175 | a completed cached session is reported again and nothing changes |
| DistHandler.TickCountsDown | backend/dist/utils/wsMessageHandler.js:328-344 | with more than one second left a tick takes exactly one second off, writes the captured manager and sends the new time |
| DistHandler.CountdownProgresses | backend/dist/utils/wsMessageHandler.js:327-344 | after n seconds, fewer than remain, exactly that many are gone and one update per second was sent, counting down |
| DistHandler.TickExpires | backend/dist/utils/wsMessageHandler.js:345-365 | at the last second the tick is exactly: time 0 sent, the interval cleared, the current question saved with answer "", score 0 and the answered flag, then the ANSWER handler's step on the self-sent frame; without a generated question nothing re-arms it |
| DistHandler.TickClampsSpentTimer | backend/dist/utils/wsMessageHandler.js:332-345 | a matching question whose timer is missing or at most 0 expires at once: the tick sends time 0 |
| DistHandler.TickUndoesPause | backend/dist/utils/wsMessageHandler.js:324-335 | as written, a tick writes the captured in-progress manager over a paused cache entry |
| DistHandler.TickResurrectsDeleted | backend/dist/utils/wsMessageHandler.js:324-335 | as written, a tick writes a removed cache entry back |
| DistHandler.PauseUndoneExample | backend/dist/utils/wsMessageHandler.js:101-115 | a concrete history: start the timer, PAUSE, one second, and the cache shows the interview running again |
| DistHandler.TickReloadingRespectsPause | backend/dist/utils/wsMessageHandler.js:327-335 | corrected interval: a tick on a paused interview changes nothing and sends nothing |
| DistHandler.TickReloadingCountsDown | backend/dist/utils/wsMessageHandler.js:328-344 | corrected interval: a live countdown still loses exactly one second per tick, read from the cache |

## Left out

- JWT verification in AUTH: the verified user id is an input; its signature checks are not modelled.
- Database reads and writes: creating questions, updating an interview's status, and marking a timed-out question answered. What the reads return is an input (`DistHandler.Outcomes`); the writes are not modelled.
- The question generator (an LLM call): its result, or its failure, is an input.
- MCQ `options` and `correctAnswer`: no handler or manager operation reads them.
- The `?? 60` fallback in the compiled `addQuestion`: difficulty is a three-valued type, so the table always has an entry.
- Envelopes without a `payload`: the compiled handler throws on them, and so does the source build's AUTH, which destructures the payload (backend/src/utils/wsMessageHandler.ts:28). Payload fields are modelled as optional values instead.
- Timing and concurrency: the 1000 ms period, interleaved async callbacks and racing writes. Each frame and each tick is one atomic step.
- Redis connection handling, reconnects, shutdown and JSON (de)serialisation: a snapshot is stored and read back exactly.
- Field naming: the source type names the question text `statement` while records carry `text`. Both are one field here.
- Ids are integers; the source also allows string ids.
- `sendToUser` fan-out to all of a user's sockets: a delivery records only its target.
- Logging.
- HEARTBEAT: neither handler has a case for it, so it is treated as an unknown type.
- backend/dist/lib/redis.js is not part of this model. The compiled handler is taken to rebuild managers through the compiled constructor, since it calls `addQuestion`, which only the compiled class has.
- SrcHandler.Tick: its contract states the write-back and when the ticker may change. The as-written expiry, messages included, is stated only on the concrete states of SrcHandler.OuterTickerAnswersReadySession and SrcHandler.InnerTickerDoesNotRearm; SrcHandler.TickCorrectedExpires describes the intended behaviour instead.
- SrcHandler.TickCorrected: its contract covers only the idle and missing-session cases. Countdown and expiry, with the messages sent at expiry, are stated by SrcHandler.TickCorrectedCountsDown and SrcHandler.TickCorrectedExpires.
- DistHandler.Tick: its contract covers only the case with no interval running. The no-op when the captured manager has no current question or a different one is stated by DistHandler.TickIgnoresStaleQuestion. The counting cases are stated by DistHandler.TickCountsDown and DistHandler.CountdownProgresses. The expiry, its recorded empty answer and the self-sent ANSWER are stated by DistHandler.TickExpires. The immediate expiry of a missing or spent timer is stated by DistHandler.TickClampsSpentTimer. The stale capture is stated by DistHandler.TickUndoesPause and DistHandler.TickResurrectsDeleted.
- DistHandler.HandleGetQuestion: after a question is added, the contract does not spell out the result. It is pinned down by DistHandler.FirstQuestionOfEmptySession and kept within the invariants by DistHandler.HandleKeepsInvariants.
- SrcManager.TotalScoreBounded: it assumes per-question scores in 0..10, which nothing in the program guarantees. The ANSWER handler stores the score the client sends (backend/src/utils/wsMessageHandler.ts:191), and the evaluator's 0..10 schema only bounds an evaluation result that is never written into a session.

## Findings

| source | as written | input that shows it | evidently intended | confidence | as-written member | corrected member |
|---|---|---|---|---|---|---|
| backend/src/utils/wsMessageHandler.ts:73-77 | every tick reloads the session through the source constructor, which resets each timer to its table value, then decrements once and saves | any cached in-progress session with a current question and an armed ticker, e.g. an easy question: every tick saves and sends 19. The source build itself creates sessions with no questions (backend/src/controllers/resume.controller.ts:82-83) and never adds one, so such a session comes from another writer of the shared cache, such as the compiled build's `addQuestion` | the countdown goes on from the saved time and expires | not executed | SrcHandler.TickIsStationary | SrcHandler.TickCorrectedCountsDown |
| backend/src/utils/wsMessageHandler.ts:109-150 | the ticker armed when the first ticker expires does not re-arm at its own expiry, although it has just sent a next question. The first ticker itself expires on its first firing over an entry still cached as ready, since AUTH starts the session only in memory and `decrementTimer` returns 0 outside in progress: the first question is answered with "" one second after AUTH and the inner ticker is armed (SrcHandler.OuterTickerAnswersReadySession). The missing re-arm is latent: the inner ticker is armed only over an entry that is no longer ready, and over such an entry the timer reset of the row above keeps it from ever expiring | two-question ready session with the inner ticker armed, a state the handler does not produce by itself: one tick sends the next question and leaves no ticker | every delivered question is timed | not executed | SrcHandler.InnerTickerDoesNotRearm | SrcHandler.TickCorrectedExpires |
| backend/dist/utils/wsMessageHandler.js:324-335 | the interval fetches the manager once and every tick writes that captured copy back to the cache | timer started on an in-progress session, then PAUSE, then one second: the cache shows in progress again; the same after the entry is deleted brings it back | each tick re-reads the cache, so pauses and removals are respected | not executed | DistHandler.TickUndoesPause | DistHandler.TickReloadingRespectsPause |

=== FILE: dist_handler.dfy ===
/**
  The compiled build's message handler (`handleWSMessage`) and its
  `startTimer` ticker. The interview id travels in each payload, replies go
  to the user's sockets or to the asking socket, and what the database and
  the question generator return is an input of the step.
 */
module DistHandler {
  import opened InterviewTypes
  import opened Protocol
  import DistManager
  import Lifecycle
  import opened SessionCache

  /**
    The running interval of `startTimer`: the question it times, the
    interview it persists to, and the manager it fetched once when it was
    started, which every tick reads and mutates.
   */
  datatype Ticker = Ticker(questionId: int, interviewId: int, captured: Session)

  /** The socket's own fields: the authenticated user id and the running interval. */
  datatype Conn = Conn(user: Option<int>, ticker: Option<Ticker>)

  /** A question record as the database returns it: no timer, and an answer string. */
  datatype DbQuestion = DbQuestion(id: int, text: string, difficulty: Difficulty, kind: QuestionType, answer: string, score: int)

  /** A generated question after the database has assigned it an id. */
  datatype Generated = Generated(id: int, text: string, difficulty: Difficulty, kind: QuestionType)

  /** A stored interview found in the database when the cache has none. */
  datatype StoredInterview = StoredInterview(status: Status, questions: seq<DbQuestion>)

  /** One row of the answered list: the fields the query selects. */
  datatype AnsweredRow = AnsweredRow(id: int, text: string, answer: string, score: int, difficulty: Difficulty)

  /**
    What the outside world answers during one step: the generator's question
    (None when it fails), the first unanswered question of the interview in
    the database, the stored interview, and the answered-list query (None
    when it fails).
   */
  datatype Outcomes = Outcomes(
    generated: Option<Generated>,
    unanswered: Option<DbQuestion>,
    stored: Option<StoredInterview>,
    answered: Option<seq<AnsweredRow>>)

  /** Server to client messages of the compiled build. */
  datatype Out =
    | QuestionOut(question: Question)
    | CompletedReport(report: DistManager.Report)
    | CompletedBare(report: DistManager.Report)
    | CompletedStored(status: Status, questions: seq<DbQuestion>)
    | ErrorOut(text: string)
    | InfoOut(text: string)
    | InterviewState(status: Status, currentIndex: int, currentQuestion: Option<Question>)
    | TimeUpdate(questionId: int, timeLeft: int, managerStatus: Status)
    | AnsweredList(rows: seq<AnsweredRow>)

  /** `sendToUser(userId, …)` reaches every socket of the user; `ws.send` only the asking one. */
  datatype Delivery = ToUser(userId: int, msg: Out) | ToSocket(msg: Out)

  /** The outcome of one inbound message or one tick. */
  datatype Step = Step(conn: Conn, store: Store, out: seq<Delivery>)

  const NotInMemory: string :=
    "Interview not found in memory. Please return to the home page and upload your resume again to start a new interview."

  /** The question the database hands back for a stored record. */
  function Record(d: DbQuestion): (q: Question)
    ensures q.id == d.id && q.answer == Some(d.answer) && !q.isAnswered && q.timeLeft.None?
  {
    Question(d.id, d.text, d.difficulty, d.kind, Some(d.answer), d.score, false, None)
  }

  /** The record created for a generated question: empty answer, score 0, unanswered. */
  function Created(g: Generated): (q: Question)
    ensures q.id == g.id && q.text == g.text && q.difficulty == g.difficulty && q.kind == g.kind
    ensures q.answer == Some("") && q.score == 0 && !q.isAnswered && q.timeLeft.None?
  {
    Question(g.id, g.text, g.difficulty, g.kind, Some(""), 0, false, None)
  }

  /** The frame a ticker sends itself on expiry: an empty, zero-score answer. */
  function ExpiryAnswer(interviewId: int): (msg: Inbound)
    ensures msg.Envelope? && DistKindOf(msg.msgType) == Some(Answer)
    ensures msg.payload.interviewId == Some(interviewId) && msg.payload.answer == Some("") && msg.payload.score == Some(0)
  {
    Envelope("answer", Payload(Some(interviewId), Some(""), Some(0), None))
  }

  /**
    `startTimer`: any running interval is cleared; the manager is fetched
    once, and when it exists a new interval captures it.
   */
  function StartTimer(conn: Conn, store: Store, questionId: int, interviewId: int): (c: Conn)
    ensures c.user == conn.user
    ensures LoadDist(store, interviewId).None? ==> c.ticker.None?
    ensures LoadDist(store, interviewId).Some? ==> c.ticker == Some(Ticker(questionId, interviewId, LoadDist(store, interviewId).value))
  {
    match LoadDist(store, interviewId)
    case None => conn.(ticker := None)
    case Some(m) => conn.(ticker := Some(Ticker(questionId, interviewId, m)))
  }

  /** An error sent to the user when there is one, and nothing otherwise. */
  function UserError(conn: Conn, text: string): (out: seq<Delivery>)
    ensures conn.user.None? ==> out == []
    ensures conn.user.Some? ==> out == [ToUser(conn.user.value, ErrorOut(text))]
  {
    match conn.user
    case None => []
    case Some(u) => [ToUser(u, ErrorOut(text))]
  }

  /**
    One inbound frame. Malformed text and unknown types (AUTH and HEARTBEAT
    among them, and the source build's `get_question`) draw an error only
    on an authenticated socket.
   */
  function Handle(conn: Conn, store: Store, msg: Inbound, o: Outcomes): (r: Step)
    ensures msg.Malformed? ==> r == Step(conn, store, UserError(conn, "Invalid JSON format"))
    ensures msg.Envelope? && DistKindOf(msg.msgType) !in {Some(Answer), Some(Pause), Some(Resume), Some(GetInterview), Some(GetQuestion), Some(GetAnswered)} ==>
              r == Step(conn, store, UserError(conn, "Unknown message type: " + msg.msgType))
  {
    match msg
    case Malformed => Step(conn, store, UserError(conn, "Invalid JSON format"))
    case Envelope(t, p) =>
      match DistKindOf(t)
      case Some(Answer) => HandleAnswer(conn, store, p, o)
      case Some(Pause) => HandlePause(conn, store, p)
      case Some(Resume) => HandleResume(conn, store, p)
      case Some(GetInterview) => HandleGetInterview(conn, store, p)
      case Some(GetQuestion) => HandleGetQuestion(conn, store, p, o)
      case Some(GetAnswered) => HandleGetAnswered(conn, store, p, o)
      case _ => Step(conn, store, UserError(conn, "Unknown message type: " + t))
  }

  /** The id and user a guarded case needs: a truthy payload id and an authenticated socket. */
  predicate Authorised(conn: Conn, p: Payload) {
    Truthy(p.interviewId) && conn.user.Some?
  }

  /**
    ANSWER: the answer is recorded (score 0) and persisted. Below six
    answered questions a generated question is added, persisted, sent and
    timed; at six the interview is submitted, reported and its cache entry
    removed.
   */
  function HandleAnswer(conn: Conn, store: Store, p: Payload, o: Outcomes): (r: Step)
    ensures !Authorised(conn, p) ==> r == Step(conn, store, [ToUser(conn.user.GetOr(0), ErrorOut("Not authenticated"))])
    ensures Authorised(conn, p) && Key(p.interviewId.value) !in store ==>
              r == Step(conn, store, [ToUser(conn.user.value, ErrorOut("Interview not found"))])
    ensures Authorised(conn, p) && Key(p.interviewId.value) in store ==>
              var id, u := p.interviewId.value, conn.user.value;
              var after := DistManager.Answer(LoadDist(store, id).value, p.answer, 0).session;
              && (CountAnswered(after.questions) >= MaxQuestions ==>
                    && r.conn == conn
                    && r.store == Delete(store, id)
                    && r.out == [ToUser(u, CompletedReport(DistManager.GetReport(Lifecycle.Submit(after))))])
              && (CountAnswered(after.questions) < MaxQuestions && o.generated.None? ==>
                    r == Step(conn, Save(store, id, after), []))
              && (CountAnswered(after.questions) < MaxQuestions && o.generated.Some? ==>
                    var added := DistManager.AddQuestion(after, Created(o.generated.value)).session;
                    && r.store == Save(store, id, added)
                    && r.out == [ToUser(u, QuestionOut(Created(o.generated.value)))]
                    && r.conn == StartTimer(conn, r.store, o.generated.value.id, id))
  {
    if !Authorised(conn, p) then Step(conn, store, [ToUser(conn.user.GetOr(0), ErrorOut("Not authenticated"))])
    else
      var id, u := p.interviewId.value, conn.user.value;
      match LoadDist(store, id)
      case None => Step(conn, store, [ToUser(u, ErrorOut("Interview not found"))])
      case Some(m) =>
        var after := DistManager.Answer(m, p.answer, 0).session;
        var saved := Save(store, id, after);
        if CountAnswered(after.questions) < MaxQuestions then
          match o.generated
          case None => Step(conn, saved, [])
          case Some(g) =>
            var created := Created(g);
            var added := DistManager.AddQuestion(after, created).session;
            var saved' := Save(saved, id, added);
            Step(StartTimer(conn, saved', g.id, id), saved', [ToUser(u, QuestionOut(created))])
        else
          var submitted := Lifecycle.Submit(after);
          var report := ToUser(u, CompletedReport(DistManager.GetReport(submitted)));
          Step(conn, Delete(Save(saved, id, submitted), id), [report])
  }

  /** PAUSE: silent without id or user; pauses and persists the cached session when there is one. */
  function HandlePause(conn: Conn, store: Store, p: Payload): (r: Step)
    ensures r.conn == conn
    ensures !Authorised(conn, p) || Key(p.interviewId.value) !in store ==> r == Step(conn, store, [])
    ensures Authorised(conn, p) && Key(p.interviewId.value) in store ==>
              && r.store == Save(store, p.interviewId.value, Lifecycle.Pause(LoadDist(store, p.interviewId.value).value))
              && r.out == [ToUser(conn.user.value, InfoOut("Interview paused"))]
  {
    if !Authorised(conn, p) then Step(conn, store, [])
    else
      var id := p.interviewId.value;
      match LoadDist(store, id)
      case None => Step(conn, store, [])
      case Some(m) => Step(conn, Save(store, id, Lifecycle.Pause(m)), [ToUser(conn.user.value, InfoOut("Interview paused"))])
  }

  /** RESUME: resumes and persists, then sends the current question when there is one. */
  function HandleResume(conn: Conn, store: Store, p: Payload): (r: Step)
    ensures r.conn == conn
    ensures !Authorised(conn, p) || Key(p.interviewId.value) !in store ==> r == Step(conn, store, [])
    ensures Authorised(conn, p) && Key(p.interviewId.value) in store ==>
              var resumed := Lifecycle.Resume(LoadDist(store, p.interviewId.value).value);
              && r.store == Save(store, p.interviewId.value, resumed)
              && 1 <= |r.out| <= 2 && r.out[0] == ToUser(conn.user.value, InfoOut("Interview resumed"))
              && (|r.out| == 2 <==> Lifecycle.GetCurrentQuestion(resumed).value.Some?)
              && (|r.out| == 2 ==> r.out[1] == ToUser(conn.user.value, QuestionOut(Lifecycle.GetCurrentQuestion(resumed).value.value)))
  {
    if !Authorised(conn, p) then Step(conn, store, [])
    else
      var id, u := p.interviewId.value, conn.user.value;
      match LoadDist(store, id)
      case None => Step(conn, store, [])
      case Some(m) =>
        var resumed := Lifecycle.Resume(m);
        var saved := Save(store, id, resumed);
        match Lifecycle.GetCurrentQuestion(resumed).value
        case Some(q) => Step(conn, saved, [ToUser(u, InfoOut("Interview resumed")), ToUser(u, QuestionOut(q))])
        case None => Step(conn, saved, [ToUser(u, InfoOut("Interview resumed"))])
  }

  /** GET_INTERVIEW: the status read before the lazy start, the cursor and the current question; nothing is written. */
  function HandleGetInterview(conn: Conn, store: Store, p: Payload): (r: Step)
    ensures r.conn == conn && r.store == store
    ensures !Authorised(conn, p) ==> r.out == []
    ensures Authorised(conn, p) && Key(p.interviewId.value) !in store ==> r.out == [ToUser(conn.user.value, ErrorOut(NotInMemory))]
    ensures Authorised(conn, p) && Key(p.interviewId.value) in store ==>
              var m := LoadDist(store, p.interviewId.value).value;
              r.out == [ToUser(conn.user.value, InterviewState(m.status, m.currentIndex, Lifecycle.GetCurrentQuestion(m).value))]
  {
    if !Authorised(conn, p) then Step(conn, store, [])
    else
      var u := conn.user.value;
      match LoadDist(store, p.interviewId.value)
      case None => Step(conn, store, [ToUser(u, ErrorOut(NotInMemory))])
      case Some(m) => Step(conn, store, [ToUser(u, InterviewState(m.status, m.currentIndex, Lifecycle.GetCurrentQuestion(m).value))])
  }

  /** The question GET_QUESTION falls back to: the first unanswered stored one, else a generated one. */
  function NextRecord(o: Outcomes): (q: Option<Question>)
    ensures o.unanswered.Some? ==> q == Some(Record(o.unanswered.value))
    ensures o.unanswered.None? ==> q == if o.generated.Some? then Some(Created(o.generated.value)) else None
  {
    if o.unanswered.Some? then Some(Record(o.unanswered.value))
    else if o.generated.Some? then Some(Created(o.generated.value))
    else None
  }

  /** After `addQuestion` in GET_QUESTION: a completed session is reopened and a cursor past the end is pulled back to the last question. */
  function Reopen(s: Session): (r: Session)
    ensures r.questions == s.questions && r.user == s.user
    ensures r.status == (if s.status == Completed then InProgress else s.status)
    ensures s.currentIndex < |s.questions| ==> r.currentIndex == s.currentIndex
    ensures s.currentIndex >= |s.questions| ==> r.currentIndex == |s.questions| - 1
  {
    var reopened := if s.status == Completed then s.(status := InProgress) else s;
    if reopened.currentIndex >= |reopened.questions| then reopened.(currentIndex := |reopened.questions| - 1) else reopened
  }

  /**
    GET_QUESTION: a completed cached session is reported; with no cached
    session a completed stored interview is reported. A current question is
    sent and timed without writing back the lazy start. Otherwise a stored
    unanswered or a generated question is added, the session reopened and
    persisted, and its current question sent and timed.
   */
  function HandleGetQuestion(conn: Conn, store: Store, p: Payload, o: Outcomes): (r: Step)
    ensures !Authorised(conn, p) ==> r == Step(conn, store, [])
    ensures Authorised(conn, p) ==>
              var id, u := p.interviewId.value, conn.user.value;
              && (LoadDist(store, id).Some? && LoadDist(store, id).value.status == Completed ==>
                    r == Step(conn, store, [ToUser(u, CompletedBare(DistManager.GetReport(LoadDist(store, id).value)))]))
              && (LoadDist(store, id).None? ==>
                    r.conn == conn && r.store == store
                    && (o.stored.Some? && o.stored.value.status == Completed ==>
                          r.out == [ToUser(u, CompletedStored(Completed, o.stored.value.questions))])
                    && (o.stored.None? || o.stored.value.status != Completed ==> r.out == []))
              && (LoadDist(store, id).Some? && Lifecycle.GetCurrentQuestion(LoadDist(store, id).value).value.Some? ==>
                    var q := Lifecycle.GetCurrentQuestion(LoadDist(store, id).value).value.value;
                    r == Step(StartTimer(conn, store, q.id, id), store, [ToUser(u, QuestionOut(q))]))
  {
    if !Authorised(conn, p) then Step(conn, store, [])
    else
      var id, u := p.interviewId.value, conn.user.value;
      match LoadDist(store, id)
      case None =>
        if o.stored.Some? && o.stored.value.status == Completed
        then Step(conn, store, [ToUser(u, CompletedStored(Completed, o.stored.value.questions))])
        else Step(conn, store, [])
      case Some(m) =>
        if m.status == Completed then Step(conn, store, [ToUser(u, CompletedBare(DistManager.GetReport(m)))])
        else
          var first := Lifecycle.GetCurrentQuestion(m);
          match first.value
          case Some(q) => Step(StartTimer(conn, store, q.id, id), store, [ToUser(u, QuestionOut(q))])
          case None =>
            match NextRecord(o)
            case None => Step(conn, store, [])
            case Some(record) =>
              var fixed := Reopen(DistManager.AddQuestion(first.session, record).session);
              var saved := Save(store, id, fixed);
              match Lifecycle.GetCurrentQuestion(fixed).value
              case None => Step(conn, saved, [])
              case Some(q) => Step(StartTimer(conn, saved, q.id, id), saved, [ToUser(u, QuestionOut(q))])
  }

  /** GET_ANSWERED: answers only the asking socket, from the database; the cache and the timer are untouched. */
  function HandleGetAnswered(conn: Conn, store: Store, p: Payload, o: Outcomes): (r: Step)
    ensures r.conn == conn && r.store == store && |r.out| == 1
    ensures !Authorised(conn, p) ==> r.out == [ToSocket(ErrorOut("Not authenticated or invalid interview"))]
    ensures Authorised(conn, p) && o.answered.None? ==> r.out == [ToSocket(ErrorOut("Could not fetch answered questions"))]
    ensures Authorised(conn, p) && o.answered.Some? ==> r.out == [ToSocket(AnsweredList(o.answered.value))]
  {
    if !Authorised(conn, p) then Step(conn, store, [ToSocket(ErrorOut("Not authenticated or invalid interview"))])
    else
      match o.answered
      case None => Step(conn, store, [ToSocket(ErrorOut("Could not fetch answered questions"))])
      case Some(rows) => Step(conn, store, [ToSocket(AnsweredList(rows))])
  }

  /** `Math.max(0, n)`. */
  function ClampZero(n: int): (r: int)
    ensures r >= 0 && r >= n
    ensures n >= 0 ==> r == n
  {
    if n < 0 then 0 else n
  }

  /**
    One interval callback acting on the manager `m`: without a current
    question, or with a different one, only `m`'s lazy start is kept. Else
    the timer drops by one (never below 0), `m` is persisted and the time
    sent; at 0 the interval stops, an empty answer is recorded and
    persisted, and an ANSWER frame is handled as if the client had sent it.
    With no user on the socket the callback fails after persisting.
   */
  function TickOn(conn: Conn, store: Store, t: Ticker, m: Session, o: Outcomes): Step {
    var cur := Lifecycle.GetCurrentQuestion(m);
    var idle := Step(conn.(ticker := Some(t.(captured := cur.session))), store, []);
    match cur.value
    case None => idle
    case Some(q) =>
      if q.id != t.questionId then idle
      else
        var left := ClampZero(q.timeLeft.GetOr(0) - 1);
        var ticked := WithCurrent(cur.session, q.(timeLeft := Some(left)));
        var saved := Save(store, t.interviewId, ticked);
        var kept := conn.(ticker := Some(t.(captured := ticked)));
        match conn.user
        case None => Step(kept, saved, [])
        case Some(u) =>
          var update := ToUser(u, TimeUpdate(q.id, left, ticked.status));
          if left > 0 then Step(kept, saved, [update])
          else
            var answered := DistManager.Answer(ticked, Some(""), 0).session;
            var next := Handle(conn.(ticker := None), Save(saved, t.interviewId, answered), ExpiryAnswer(t.interviewId), o);
            Step(next.conn, next.store, [update] + next.out)
  }

  /** One second of the running interval, as written: it works on the manager captured at `startTimer`. */
  function Tick(conn: Conn, store: Store, o: Outcomes): (r: Step)
    ensures conn.ticker.None? ==> r == Step(conn, store, [])
  {
    match conn.ticker
    case None => Step(conn, store, [])
    case Some(t) => TickOn(conn, store, t, t.captured, o)
  }

  /**
    One second with the evidently intended behaviour: the manager is
    re-read from the cache on every tick, and the interval stops when the
    entry is gone.
   */
  function TickReloading(conn: Conn, store: Store, o: Outcomes): (r: Step)
    ensures conn.ticker.None? ==> r == Step(conn, store, [])
    ensures conn.ticker.Some? && Key(conn.ticker.value.interviewId) !in store ==> r == Step(conn.(ticker := None), store, [])
  {
    match conn.ticker
    case None => Step(conn, store, [])
    case Some(t) =>
      match LoadDist(store, t.interviewId)
      case None => Step(conn.(ticker := None), store, [])
      case Some(m) => TickOn(conn, store, t, m, o)
  }

  /** A cached snapshot as the compiled build keeps it: at most six questions, distinct ids, cursor in range. */
  predicate SnapshotOk(snap: Snapshot) {
    && |snap.questions| <= MaxQuestions
    && UniqueIds(snap.questions)
    && 0 <= snap.currentIndex <= |snap.questions|
  }

  predicate StoreOk(store: Store) {
    forall k :: k in store ==> SnapshotOk(store[k])
  }

  /** A running interval holds a valid manager. */
  predicate ConnOk(conn: Conn) {
    conn.ticker.Some? ==> DistManager.Valid(conn.ticker.value.captured)
  }

  /** Loading from a well-kept cache yields a valid manager. */
  lemma LoadedValid(store: Store, id: int)
    requires StoreOk(store) && Key(id) in store
    ensures DistManager.Valid(LoadDist(store, id).value)
  {
    var snap := store[Key(id)];
    var m := LoadDist(store, id).value;
    assert forall i :: 0 <= i < |snap.questions| ==> m.questions[i].id == snap.questions[i].id by {
      forall i | 0 <= i < |snap.questions|
        ensures m.questions[i].id == snap.questions[i].id
      {
        assert SameContent(m.questions[i], snap.questions[i]);
        assert m.questions[i].(timeLeft := None).id == snap.questions[i].(timeLeft := None).id;
      }
    }
  }

  /** Writing a valid manager, or removing an entry, keeps the cache well kept. */
  lemma SaveDeleteOk(store: Store, id: int, s: Session)
    requires StoreOk(store)
    ensures DistManager.Valid(s) ==> StoreOk(Save(store, id, s))
    ensures StoreOk(Delete(store, id))
  {
  }

  lemma StartTimerOk(conn: Conn, store: Store, questionId: int, interviewId: int)
    requires StoreOk(store)
    ensures ConnOk(StartTimer(conn, store, questionId, interviewId))
  {
    if Key(interviewId) in store {
      LoadedValid(store, interviewId);
    }
  }

  /** `addQuestion` never leaves the list empty, so reopening after it keeps the cursor in range. */
  lemma AddReopenValid(s: Session, q: Question)
    requires DistManager.Valid(s)
    ensures DistManager.Valid(Reopen(DistManager.AddQuestion(s, q).session))
    ensures |DistManager.AddQuestion(s, q).session.questions| >= 1
  {
    DistManager.AddQuestionKeepsValid(s, q);
  }

  lemma AnswerKeepsInvariants(conn: Conn, store: Store, p: Payload, o: Outcomes)
    requires StoreOk(store) && ConnOk(conn)
    ensures StoreOk(HandleAnswer(conn, store, p, o).store)
    ensures ConnOk(HandleAnswer(conn, store, p, o).conn)
  {
    if Authorised(conn, p) && Key(p.interviewId.value) in store {
      var id := p.interviewId.value;
      var m := LoadDist(store, id).value;
      LoadedValid(store, id);
      var after := DistManager.Answer(m, p.answer, 0).session;
      DistManager.StepInvariant(m, DistManager.AnswerOp(p.answer, 0));
      if CountAnswered(after.questions) < MaxQuestions {
        if o.generated.Some? {
          var added := DistManager.AddQuestion(after, Created(o.generated.value)).session;
          DistManager.AddQuestionKeepsValid(after, Created(o.generated.value));
          SaveDeleteOk(store, id, added);
          StartTimerOk(conn, Save(store, id, added), o.generated.value.id, id);
        } else {
          SaveDeleteOk(store, id, after);
        }
      } else {
        SaveDeleteOk(store, id, after);
      }
    }
  }

  lemma GetQuestionKeepsInvariants(conn: Conn, store: Store, p: Payload, o: Outcomes)
    requires StoreOk(store) && ConnOk(conn)
    ensures StoreOk(HandleGetQuestion(conn, store, p, o).store)
    ensures ConnOk(HandleGetQuestion(conn, store, p, o).conn)
  {
    if Authorised(conn, p) && Key(p.interviewId.value) in store {
      var id := p.interviewId.value;
      var m := LoadDist(store, id).value;
      LoadedValid(store, id);
      var first := Lifecycle.GetCurrentQuestion(m);
      DistManager.StepInvariant(m, DistManager.GetCurrentOp);
      StartTimerOk(conn, store, if first.value.Some? then first.value.value.id else 0, id);
      if m.status != Completed && first.value.None? && NextRecord(o).Some? {
        var fixed := Reopen(DistManager.AddQuestion(first.session, NextRecord(o).value).session);
        AddReopenValid(first.session, NextRecord(o).value);
        SaveDeleteOk(store, id, fixed);
        var q := Lifecycle.GetCurrentQuestion(fixed).value;
        StartTimerOk(conn, Save(store, id, fixed), if q.Some? then q.value.id else 0, id);
      }
    }
  }

  lemma PauseResumeKeepInvariants(conn: Conn, store: Store, p: Payload)
    requires StoreOk(store)
    ensures StoreOk(HandlePause(conn, store, p).store)
    ensures StoreOk(HandleResume(conn, store, p).store)
  {
    if Authorised(conn, p) && Key(p.interviewId.value) in store {
      var id := p.interviewId.value;
      LoadedValid(store, id);
      SaveDeleteOk(store, id, Lifecycle.Pause(LoadDist(store, id).value));
      SaveDeleteOk(store, id, Lifecycle.Resume(LoadDist(store, id).value));
    }
  }

  /**
    No inbound message lets a cached session exceed six questions, repeat
    an id or move its cursor out of range, and a started interval always
    holds such a session.
   */
  lemma HandleKeepsInvariants(conn: Conn, store: Store, msg: Inbound, o: Outcomes)
    requires StoreOk(store) && ConnOk(conn)
    ensures StoreOk(Handle(conn, store, msg, o).store)
    ensures ConnOk(Handle(conn, store, msg, o).conn)
  {
    if msg.Envelope? {
      var k := DistKindOf(msg.msgType);
      if k == Some(Answer) {
        AnswerKeepsInvariants(conn, store, msg.payload, o);
      } else if k == Some(GetQuestion) {
        GetQuestionKeepsInvariants(conn, store, msg.payload, o);
      } else if k == Some(Pause) || k == Some(Resume) {
        PauseResumeKeepInvariants(conn, store, msg.payload);
      }
    }
  }

  lemma TickOnKeepsInvariants(conn: Conn, store: Store, t: Ticker, m: Session, o: Outcomes)
    requires StoreOk(store) && DistManager.Valid(m)
    ensures StoreOk(TickOn(conn, store, t, m, o).store)
    ensures ConnOk(TickOn(conn, store, t, m, o).conn)
  {
    var cur := Lifecycle.GetCurrentQuestion(m);
    DistManager.StepInvariant(m, DistManager.GetCurrentOp);
    if cur.value.Some? && cur.value.value.id == t.questionId {
      var q := cur.value.value;
      var left := ClampZero(q.timeLeft.GetOr(0) - 1);
      var ticked := WithCurrent(cur.session, q.(timeLeft := Some(left)));
      assert forall i :: 0 <= i < |ticked.questions| ==> ticked.questions[i].id == cur.session.questions[i].id;
      SaveDeleteOk(store, t.interviewId, ticked);
      if conn.user.Some? && left <= 0 {
        var answered := DistManager.Answer(ticked, Some(""), 0).session;
        DistManager.StepInvariant(ticked, DistManager.AnswerOp(Some(""), 0));
        SaveDeleteOk(Save(store, t.interviewId, ticked), t.interviewId, answered);
        HandleKeepsInvariants(conn.(ticker := None), Save(Save(store, t.interviewId, ticked), t.interviewId, answered), ExpiryAnswer(t.interviewId), o);
      }
    }
  }

  /** Ticks keep the same invariants, as written and corrected. */
  lemma TickKeepsInvariants(conn: Conn, store: Store, o: Outcomes)
    requires StoreOk(store) && ConnOk(conn)
    ensures StoreOk(Tick(conn, store, o).store) && ConnOk(Tick(conn, store, o).conn)
    ensures StoreOk(TickReloading(conn, store, o).store) && ConnOk(TickReloading(conn, store, o).conn)
  {
    if conn.ticker.Some? {
      var t := conn.ticker.value;
      TickOnKeepsInvariants(conn, store, t, t.captured, o);
      if Key(t.interviewId) in store {
        LoadedValid(store, t.interviewId);
        TickOnKeepsInvariants(conn, store, t, LoadDist(store, t.interviewId).value, o);
      }
    }
  }

  /** What can happen to one connection: a frame arrives, or a second passes. */
  datatype Event = Receive(msg: Inbound, o: Outcomes) | Second(o: Outcomes)

  function StepOf(conn: Conn, store: Store, e: Event): Step {
    match e
    case Receive(msg, o) => Handle(conn, store, msg, o)
    case Second(o) => Tick(conn, store, o)
  }

  /** A connection's history, as written. */
  function Run(conn: Conn, store: Store, events: seq<Event>): Step
    decreases |events|
  {
    if |events| == 0 then Step(conn, store, [])
    else
      var first := StepOf(conn, store, events[0]);
      var rest := Run(first.conn, first.store, events[1..]);
      Step(rest.conn, rest.store, first.out + rest.out)
  }

  /** Whatever frames arrive and however the timer fires, no cached interview ever holds more than six questions. */
  lemma {:induction false} RunKeepsInvariants(conn: Conn, store: Store, events: seq<Event>)
    requires StoreOk(store) && ConnOk(conn)
    ensures StoreOk(Run(conn, store, events).store) && ConnOk(Run(conn, store, events).conn)
    ensures forall k :: k in Run(conn, store, events).store ==> |Run(conn, store, events).store[k].questions| <= MaxQuestions
    decreases |events|
  {
    if |events| > 0 {
      match events[0] {
        case Receive(msg, o) => HandleKeepsInvariants(conn, store, msg, o);
        case Second(o) => TickKeepsInvariants(conn, store, o);
      }
      var first := StepOf(conn, store, events[0]);
      RunKeepsInvariants(first.conn, first.store, events[1..]);
    }
  }

  /**
    The first GET_QUESTION on a fresh, empty session with nothing stored
    and a generated question: the session holds exactly that question,
    timed from the table, in progress at index 0; it is sent and timed.
   */
  lemma FirstQuestionOfEmptySession(conn: Conn, store: Store, p: Payload, o: Outcomes, user: User)
    requires Authorised(conn, p)
    requires Key(p.interviewId.value) in store && store[Key(p.interviewId.value)] == Snapshot([], user, Ready, 0)
    requires o.unanswered.None? && o.generated.Some?
    ensures var id, g := p.interviewId.value, o.generated.value;
            var q := DistManager.Enriched(Created(g));
            var live := Session([q], user, InProgress, 0);
            var r := HandleGetQuestion(conn, store, p, o);
            && q.timeLeft == Some(DifficultyTime(g.difficulty))
            && r.store == Save(store, id, live)
            && r.out == [ToUser(conn.user.value, QuestionOut(q))]
            && r.conn.ticker == Some(Ticker(g.id, id, live))
  {
    var id, g := p.interviewId.value, o.generated.value;
    var q := DistManager.Enriched(Created(g));
    var live := Session([q], user, InProgress, 0);
    var m := LoadDist(store, id).value;
    assert m == Session([], user, Ready, 0);
    var first := Lifecycle.GetCurrentQuestion(m);
    assert first == Reply(Session([], user, Completed, 0), None);
    assert NextRecord(o) == Some(Created(g));
    var added := DistManager.AddQuestion(first.session, Created(g));
    assert added.session == Session([q], user, Completed, 0);
    assert Reopen(added.session) == live;
    SaveLoadDistRoundTrip(store, id, live);
  }

  /** A session found completed in the cache is reported again, and nothing changes. */
  lemma CompletedIsReportedAgain(conn: Conn, store: Store, p: Payload, o: Outcomes)
    requires Authorised(conn, p) && Key(p.interviewId.value) in store
    requires store[Key(p.interviewId.value)].status == Completed
    ensures var r := HandleGetQuestion(conn, store, p, o);
            && r.conn == conn && r.store == store && |r.out| == 1 && r.out[0].msg.CompletedBare?
            && r.out[0].msg.report.status == Completed
  {
  }

  /** A running interval on the question at the cursor of an in-progress manager, with `secs` left. */
  predicate Counting(conn: Conn, secs: int) {
    && conn.user.Some?
    && conn.ticker.Some?
    && var c := conn.ticker.value.captured;
    && c.status == InProgress
    && HasCurrent(c)
    && c.questions[c.currentIndex].id == conn.ticker.value.questionId
    && c.questions[c.currentIndex].timeLeft == Some(secs)
  }

  /**
    With more than one second left a tick takes exactly one second off,
    writes the captured manager to the cache and sends the new time.
   */
  lemma TickCountsDown(conn: Conn, store: Store, o: Outcomes, secs: int)
    requires Counting(conn, secs) && secs > 1
    ensures var r := Tick(conn, store, o);
            var t := conn.ticker.value;
            && Counting(r.conn, secs - 1)
            && r.conn.user == conn.user
            && r.conn.ticker.value.questionId == t.questionId && r.conn.ticker.value.interviewId == t.interviewId
            && r.store == Save(store, t.interviewId, r.conn.ticker.value.captured)
            && r.out == [ToUser(conn.user.value, TimeUpdate(t.questionId, secs - 1, InProgress))]
  {
  }

  /**
    When the captured manager has no current question, or its current
    question is not the one the interval was armed for, a tick sends and
    writes nothing; only the lazy start of `getCurrentQuestion` is kept in
    the captured copy.
   */
  lemma TickIgnoresStaleQuestion(conn: Conn, store: Store, o: Outcomes)
    requires conn.ticker.Some?
    requires var cur := Lifecycle.GetCurrentQuestion(conn.ticker.value.captured);
             cur.value.None? || cur.value.value.id != conn.ticker.value.questionId
    ensures var t := conn.ticker.value;
            var cur := Lifecycle.GetCurrentQuestion(t.captured);
            Tick(conn, store, o) == Step(conn.(ticker := Some(t.(captured := cur.session))), store, [])
  {
  }

  /** The same no-op for the reloading tick, judged on the manager just read from the cache. */
  lemma TickReloadingIgnoresStaleQuestion(conn: Conn, store: Store, o: Outcomes)
    requires conn.ticker.Some? && Key(conn.ticker.value.interviewId) in store
    requires var cur := Lifecycle.GetCurrentQuestion(LoadDist(store, conn.ticker.value.interviewId).value);
             cur.value.None? || cur.value.value.id != conn.ticker.value.questionId
    ensures var t := conn.ticker.value;
            var cur := Lifecycle.GetCurrentQuestion(LoadDist(store, t.interviewId).value);
            TickReloading(conn, store, o) == Step(conn.(ticker := Some(t.(captured := cur.session))), store, [])
  {
  }

  /** `n` firings of the interval as written, with the same outside answers. */
  function Ticks(conn: Conn, store: Store, o: Outcomes, n: nat): Step
    decreases n
  {
    if n == 0 then Step(conn, store, [])
    else
      var first := Tick(conn, store, o);
      var rest := Ticks(first.conn, first.store, o, n - 1);
      Step(rest.conn, rest.store, first.out + rest.out)
  }

  /** A second save under the same key overrides the first. */
  lemma SaveTwice(store: Store, id: int, a: Session, b: Session)
    ensures Save(Save(store, id, a), id, b) == Save(store, id, b)
  {
  }

  /** One time update followed by the updates of the remaining seconds is the run of updates from `secs - 1` down. */
  lemma UpdatesPrepend(first: seq<Delivery>, rest: seq<Delivery>, u: int, qid: int, secs: int, n: nat)
    requires n > 0
    requires first == [ToUser(u, TimeUpdate(qid, secs - 1, InProgress))]
    requires |rest| == n - 1
    requires forall i :: 0 <= i < n - 1 ==> rest[i] == ToUser(u, TimeUpdate(qid, secs - 2 - i, InProgress))
    ensures |first + rest| == n
    ensures forall i :: 0 <= i < n ==> (first + rest)[i] == ToUser(u, TimeUpdate(qid, secs - 1 - i, InProgress))
  {
    forall i | 0 <= i < n
      ensures (first + rest)[i] == ToUser(u, TimeUpdate(qid, secs - 1 - i, InProgress))
    {
      if i > 0 {
        assert (first + rest)[i] == rest[i - 1];
      }
    }
  }

  /**
    Unlike the source build's ticker, this one counts down: after `n`
    seconds, fewer than the `secs` left, exactly `secs - n` remain, the
    cache holds the counting manager and one time update was sent per second.
   */
  lemma {:induction false} CountdownProgresses(conn: Conn, store: Store, o: Outcomes, secs: int, n: nat)
    requires Counting(conn, secs) && n < secs
    ensures var r := Ticks(conn, store, o, n);
            var t := conn.ticker.value;
            && Counting(r.conn, secs - n)
            && r.conn.ticker.value.questionId == t.questionId && r.conn.ticker.value.interviewId == t.interviewId
            && (n > 0 ==> r.store == Save(store, t.interviewId, r.conn.ticker.value.captured))
            && |r.out| == n
            && (forall i :: 0 <= i < n ==> r.out[i] == ToUser(conn.user.value, TimeUpdate(t.questionId, secs - 1 - i, InProgress)))
    decreases n
  {
    if n > 0 {
      TickCountsDown(conn, store, o, secs);
      var t := conn.ticker.value;
      var first := Tick(conn, store, o);
      CountdownProgresses(first.conn, first.store, o, secs - 1, n - 1);
      var rest := Ticks(first.conn, first.store, o, n - 1);
      assert Ticks(conn, store, o, n) == Step(rest.conn, rest.store, first.out + rest.out);
      if n > 1 {
        SaveTwice(store, t.interviewId, first.conn.ticker.value.captured, rest.conn.ticker.value.captured);
      }
      UpdatesPrepend(first.out, rest.out, conn.user.value, t.questionId, secs, n);
    }
  }

  /**
    At the last second the tick sends time 0, stops the interval, records
    an empty zero-score answer on the current question and saves it, and
    the rest of the step is the ANSWER handler's reply to the frame the
    tick sends itself; without a generated question nothing re-arms.
   */
  lemma TickExpires(conn: Conn, store: Store, o: Outcomes)
    requires Counting(conn, 1)
    ensures var t := conn.ticker.value;
            var c := t.captured;
            var ticked := WithCurrent(c, c.questions[c.currentIndex].(timeLeft := Some(0)));
            var answered := DistManager.Answer(ticked, Some(""), 0).session;
            var next := Handle(conn.(ticker := None), Save(store, t.interviewId, answered), ExpiryAnswer(t.interviewId), o);
            && Tick(conn, store, o) == Step(next.conn, next.store, [ToUser(conn.user.value, TimeUpdate(t.questionId, 0, InProgress))] + next.out)
            && answered.questions[c.currentIndex].answer == Some("")
            && answered.questions[c.currentIndex].score == 0
            && answered.questions[c.currentIndex].isAnswered
            && (o.generated.None? ==> next.conn.ticker.None?)
  {
    var t := conn.ticker.value;
    var c := t.captured;
    var q := c.questions[c.currentIndex];
    assert Lifecycle.GetCurrentQuestion(c) == Reply(c, Some(q));
    var ticked := WithCurrent(c, q.(timeLeft := Some(0)));
    var answered := DistManager.Answer(ticked, Some(""), 0).session;
    SaveTwice(store, t.interviewId, ticked, answered);
  }

  /**
    A matching question whose timer is missing or already at most 0 is
    treated as expired at once: the tick sends time 0.
   */
  lemma TickClampsSpentTimer(conn: Conn, store: Store, o: Outcomes)
    requires conn.user.Some? && conn.ticker.Some?
    requires var c := conn.ticker.value.captured;
             && (c.status == Ready || c.status == InProgress)
             && HasCurrent(c)
             && c.questions[c.currentIndex].id == conn.ticker.value.questionId
             && (c.questions[c.currentIndex].timeLeft.None? || c.questions[c.currentIndex].timeLeft.value <= 0)
    ensures var r := Tick(conn, store, o);
            && |r.out| >= 1
            && r.out[0] == ToUser(conn.user.value, TimeUpdate(conn.ticker.value.questionId, 0, InProgress))
  {
  }

  /**
    As written, a tick writes the manager captured when the timer started
    over the cache entry: a pause made since then is undone.
   */
  lemma TickUndoesPause(conn: Conn, store: Store, o: Outcomes, secs: int)
    requires Counting(conn, secs) && secs > 1
    requires Key(conn.ticker.value.interviewId) in store && store[Key(conn.ticker.value.interviewId)].status == Paused
    ensures Tick(conn, store, o).store[Key(conn.ticker.value.interviewId)].status == InProgress
  {
    TickCountsDown(conn, store, o, secs);
  }

  /** As written, a tick after the interview's entry was removed writes it back. */
  lemma TickResurrectsDeleted(conn: Conn, store: Store, o: Outcomes, secs: int)
    requires Counting(conn, secs) && secs > 1
    requires Key(conn.ticker.value.interviewId) !in store
    ensures Key(conn.ticker.value.interviewId) in Tick(conn, store, o).store
  {
    TickCountsDown(conn, store, o, secs);
  }

  /** A concrete history: a timer is started, the candidate pauses, one second passes, and the cache shows the interview running again. */
  lemma PauseUndoneExample()
    ensures var u := User(1, "Ada", "ada@example.com", "555");
            var q := Question(5, "first", Easy, Opinion, Some(""), 0, false, Some(20));
            var live := Session([q], u, InProgress, 0);
            var conn := Conn(Some(1), Some(Ticker(5, 7, live)));
            var o := Outcomes(None, None, None, None);
            var paused := Handle(conn, Save(map[], 7, live), Envelope("pause", Payload(Some(7), None, None, None)), o);
            && paused.store[Key(7)].status == Paused
            && Tick(paused.conn, paused.store, o).store[Key(7)].status == InProgress
  {
    var u := User(1, "Ada", "ada@example.com", "555");
    var q := Question(5, "first", Easy, Opinion, Some(""), 0, false, Some(20));
    var live := Session([q], u, InProgress, 0);
    SaveLoadDistRoundTrip(map[], 7, live);
  }

  /** Re-reading the cache, a tick on a paused interview changes nothing and sends nothing. */
  lemma TickReloadingRespectsPause(conn: Conn, store: Store, o: Outcomes)
    requires conn.ticker.Some? && Key(conn.ticker.value.interviewId) in store
    requires store[Key(conn.ticker.value.interviewId)].status == Paused
    ensures TickReloading(conn, store, o).store == store
    ensures TickReloading(conn, store, o).out == []
  {
  }

  /** Re-reading the cache, a live countdown still takes one second off what the cache holds. */
  lemma TickReloadingCountsDown(conn: Conn, store: Store, o: Outcomes, secs: int)
    requires conn.user.Some? && conn.ticker.Some?
    requires var t := conn.ticker.value;
             && Key(t.interviewId) in store
             && var snap := store[Key(t.interviewId)];
             && snap.status == InProgress && 0 <= snap.currentIndex < |snap.questions|
             && snap.questions[snap.currentIndex].id == t.questionId
             && snap.questions[snap.currentIndex].timeLeft == Some(secs) && secs > 1
    ensures var t := conn.ticker.value;
            var snap := store[Key(t.interviewId)];
            var r := TickReloading(conn, store, o);
            && Key(t.interviewId) in r.store
            && r.store[Key(t.interviewId)].questions[snap.currentIndex].timeLeft == Some(secs - 1)
            && r.store[Key(t.interviewId)].status == InProgress
            && r.out == [ToUser(conn.user.value, TimeUpdate(t.questionId, secs - 1, InProgress))]
  {
  }
}

=== FILE: dist_manager.dfy ===
/**
  The compiled JavaScript `InterviewManager` (backend/dist): `answer` only
  records the answer, `addQuestion` inserts idempotently under the six
  question cap, and the constructor keeps a timer that is already set.
 */
module DistManager {
  import opened InterviewTypes
  import Lifecycle

  /** A question whose missing timer is filled from the difficulty table. */
  function KeepOrTableTimed(q: Question): (r: Question)
    ensures SameContent(r, q)
    ensures q.timeLeft.Some? ==> r == q
    ensures q.timeLeft.None? ==> r.timeLeft == Some(DifficultyTime(q.difficulty))
  {
    q.(timeLeft := Some(q.timeLeft.GetOr(DifficultyTime(q.difficulty))))
  }

  /**
    The constructor: ready, cursor at 0; an existing `timeLeft` is kept and
    only an absent one is taken from the table.
   */
  function New(questions: seq<Question>, user: User): (s: Session)
    ensures s.status == Ready && s.currentIndex == 0 && s.user == user
    ensures |s.questions| == |questions|
    ensures forall i :: 0 <= i < |questions| ==>
              SameContent(s.questions[i], questions[i])
              && (questions[i].timeLeft.Some? ==> s.questions[i] == questions[i])
              && (questions[i].timeLeft.None? ==> s.questions[i].timeLeft == Some(DifficultyTime(questions[i].difficulty)))
    ensures Timed(s.questions)
  {
    Session(seq(|questions|, i requires 0 <= i < |questions| => KeepOrTableTimed(questions[i])), user, Ready, 0)
  }

  /** Questions that already carry timers pass through the constructor unchanged. */
  lemma NewKeepsTimedQuestions(questions: seq<Question>, user: User)
    requires Timed(questions)
    ensures New(questions, user).questions == questions
  {
    var s := New(questions, user);
    assert forall i :: 0 <= i < |questions| ==> s.questions[i] == questions[i];
  }

  /**
    `answer`: false and no change without a question at the cursor;
    otherwise records answer and score, zeroes the timer, marks it answered
    and returns true. The cursor and the status never move.
   */
  function Answer(s: Session, text: Option<string>, score: int): (r: Reply<bool>)
    ensures r.session.currentIndex == s.currentIndex
    ensures r.session.status == s.status
    ensures r.session.user == s.user
    ensures |r.session.questions| == |s.questions|
    ensures !HasCurrent(s) ==> r == Reply(s, false)
    ensures HasCurrent(s) ==>
              && r.value
              && r.session.questions[s.currentIndex]
                 == s.questions[s.currentIndex].(answer := text, score := score, timeLeft := Some(0), isAnswered := true)
              && (forall j :: 0 <= j < |s.questions| && j != s.currentIndex ==> r.session.questions[j] == s.questions[j])
  {
    if !HasCurrent(s) then Reply(s, false)
    else
      var q := s.questions[s.currentIndex];
      Reply(WithCurrent(s, q.(answer := text, timeLeft := Some(0), score := score, isAnswered := true)), true)
  }

  /** Answering changes no id, so the id set and its uniqueness survive. */
  lemma AnswerKeepsIds(s: Session, text: Option<string>, score: int)
    ensures forall i :: 0 <= i < |s.questions| ==> Answer(s, text, score).session.questions[i].id == s.questions[i].id
    ensures UniqueIds(s.questions) ==> UniqueIds(Answer(s, text, score).session.questions)
  {
  }

  /** Answering a question the cursor holds raises the answered count by at most one. */
  lemma {:induction false} AnswerCount(s: Session, text: Option<string>, score: int)
    requires HasCurrent(s)
    ensures CountAnswered(Answer(s, text, score).session.questions)
            == CountAnswered(s.questions) + (if s.questions[s.currentIndex].isAnswered then 0 else 1)
  {
    CountAfterUpdate(s.questions, s.currentIndex, Answer(s, text, score).session.questions[s.currentIndex]);
  }

  lemma {:induction false} CountAfterUpdate(qs: seq<Question>, i: int, q: Question)
    requires 0 <= i < |qs|
    ensures CountAnswered(qs[i := q])
            == CountAnswered(qs) - (if qs[i].isAnswered then 1 else 0) + (if q.isAnswered then 1 else 0)
  {
    if i > 0 {
      CountAfterUpdate(qs[1..], i - 1, q);
      assert qs[i := q][1..] == qs[1..][i - 1 := q];
    } else {
      assert qs[i := q][1..] == qs[1..];
    }
  }

  /** What `addQuestion` returns: `undefined` for a known id, `null` when full, or the stored question. */
  datatype AddOutcome = Duplicate | Full | Added(stored: Question)

  /** The question as `addQuestion` stores it: its own timer, else the table value. */
  function Enriched(q: Question): (r: Question)
    ensures SameContent(r, q)
    ensures r.timeLeft == Some(q.timeLeft.GetOr(DifficultyTime(q.difficulty)))
  {
    KeepOrTableTimed(q)
  }

  /**
    `addQuestion`: a known id changes nothing; a session already holding six
    questions changes nothing; otherwise the question is appended with its
    timer filled in and the cursor moves to it.
   */
  function AddQuestion(s: Session, q: Question): (r: Reply<AddOutcome>)
    ensures HasId(s.questions, q.id) ==> r == Reply(s, Duplicate)
    ensures !HasId(s.questions, q.id) && |s.questions| >= MaxQuestions ==> r == Reply(s, Full)
    ensures !HasId(s.questions, q.id) && |s.questions| < MaxQuestions ==>
              && r.value == Added(Enriched(q))
              && r.session.questions == s.questions + [Enriched(q)]
              && r.session.currentIndex == |s.questions|
              && r.session.status == s.status
              && r.session.user == s.user
  {
    if exists i :: 0 <= i < |s.questions| && s.questions[i].id == q.id then Reply(s, Duplicate)
    else if |s.questions| >= MaxQuestions then Reply(s, Full)
    else
      var stored := Enriched(q);
      var grown := s.(questions := s.questions + [stored]);
      Reply(grown.(currentIndex := |grown.questions| - 1), Added(stored))
  }

  /** Adding the same question twice is the same as adding it once. */
  lemma AddQuestionIdempotent(s: Session, q: Question)
    ensures AddQuestion(AddQuestion(s, q).session, q).session == AddQuestion(s, q).session
  {
    var once := AddQuestion(s, q).session;
    if !HasId(s.questions, q.id) && |s.questions| < MaxQuestions {
      assert once.questions[|s.questions|].id == q.id;
    }
  }

  /** The session the constructor and `addQuestion` maintain: capped, distinct ids, cursor in range. */
  predicate Valid(s: Session) {
    && |s.questions| <= MaxQuestions
    && UniqueIds(s.questions)
    && CursorInRange(s)
  }

  /** `addQuestion` keeps the cap and the distinct ids, and never removes a question. */
  lemma AddQuestionKeepsValid(s: Session, q: Question)
    requires Valid(s)
    ensures Valid(AddQuestion(s, q).session)
    ensures s.questions <= AddQuestion(s, q).session.questions
    ensures |AddQuestion(s, q).session.questions| <= |s.questions| + 1
  {
  }

  /** The report row of the compiled version also carries the question type. */
  datatype ReportRow = ReportRow(id: int, text: string, answer: string, score: int, difficulty: Difficulty, kind: QuestionType)

  datatype Report = Report(status: Status, questions: seq<ReportRow>)

  function Row(q: Question): ReportRow {
    ReportRow(q.id, q.text, q.answer.GetOr(""), q.score, q.difficulty, q.kind)
  }

  /**
    `getReport`: status and an in-order projection of every question with a
    missing answer shown as "".
   */
  function GetReport(s: Session): (r: Report)
    ensures r.status == s.status
    ensures |r.questions| == |s.questions|
    ensures forall i :: 0 <= i < |s.questions| ==>
              && r.questions[i].id == s.questions[i].id
              && r.questions[i].text == s.questions[i].text
              && r.questions[i].score == s.questions[i].score
              && r.questions[i].difficulty == s.questions[i].difficulty
              && r.questions[i].kind == s.questions[i].kind
              && (s.questions[i].answer.Some? ==> r.questions[i].answer == s.questions[i].answer.value)
              && (s.questions[i].answer.None? ==> r.questions[i].answer == "")
  {
    Report(s.status, seq(|s.questions|, i requires 0 <= i < |s.questions| => Row(s.questions[i])))
  }

  /** The operations a caller can apply to a compiled-version manager. */
  datatype Op =
    | AnswerOp(text: Option<string>, score: int)
    | AddOp(q: Question)
    | GetCurrentOp
    | PauseOp
    | ResumeOp
    | SubmitOp

  function Apply(s: Session, op: Op): Session {
    match op
    case AnswerOp(t, sc) => Answer(s, t, sc).session
    case AddOp(q) => AddQuestion(s, q).session
    case GetCurrentOp => Lifecycle.GetCurrentQuestion(s).session
    case PauseOp => Lifecycle.Pause(s)
    case ResumeOp => Lifecycle.Resume(s)
    case SubmitOp => Lifecycle.Submit(s)
  }

  /**
    Every operation keeps the session valid, and only `submit` or a
    `getCurrentQuestion` that finds the cursor past the end completes it.
   */
  lemma StepInvariant(s: Session, op: Op)
    requires Valid(s)
    ensures Valid(Apply(s, op))
    ensures s.status != Completed && Apply(s, op).status == Completed ==>
              op.SubmitOp? || (op.GetCurrentOp? && !HasCurrent(s))
  {
    match op
    case AnswerOp(t, sc) => AnswerKeepsIds(s, t, sc);
    case AddOp(q) => AddQuestionKeepsValid(s, q);
    case _ =>
  }

  /** Over any sequence of operations the session stays valid, so never exceeds six questions. */
  function ApplyAll(s: Session, ops: seq<Op>): Session
    decreases |ops|
  {
    if |ops| == 0 then s else ApplyAll(Apply(s, ops[0]), ops[1..])
  }

  lemma {:induction false} ApplyAllValid(s: Session, ops: seq<Op>)
    requires Valid(s)
    ensures Valid(ApplyAll(s, ops))
    ensures |ApplyAll(s, ops).questions| <= MaxQuestions
    decreases |ops|
  {
    if |ops| > 0 {
      StepInvariant(s, ops[0]);
      ApplyAllValid(Apply(s, ops[0]), ops[1..]);
    }
  }
}

=== FILE: interview_types.dfy ===
/**
  Shared data model of the interview session engine: questions, candidates,
  sessions and the status state machine, as held by both manager versions.
 */
module InterviewTypes {

  /** A value that may be absent (JavaScript `undefined` / `null`). */
  datatype Option<+T> = None | Some(value: T) {
    /** The `??` operator: the value, or `default` when absent. */
    function GetOr(default: T): T {
      match this
      case Some(v) => v
      case None => default
    }
  }

  /** Interview status (`InterviewStatus`). */
  datatype Status = Ready | InProgress | Paused | Completed

  datatype Difficulty = Easy | Medium | Hard

  /** Question kind: multiple choice or open-ended opinion. */
  datatype QuestionType = Mcq | Opinion

  /** The candidate stored with a session. */
  datatype User = User(id: int, name: string, email: string, phoneNo: string)

  /**
    A question as the session holds it. `answer` and `timeLeft` may be absent
    in records coming from the database; the constructors fill `timeLeft`.
   */
  datatype Question = Question(
    id: int,
    text: string,
    difficulty: Difficulty,
    kind: QuestionType,
    answer: Option<string>,
    score: int,
    isAnswered: bool,
    timeLeft: Option<int>)

  /** The live session: what an `InterviewManager` instance holds. */
  datatype Session = Session(
    questions: seq<Question>,
    user: User,
    status: Status,
    currentIndex: int)

  /** A mutating manager call: the session afterwards and the call's return value. */
  datatype Reply<T> = Reply(session: Session, value: T)

  /** The most questions one interview may hold. */
  const MaxQuestions: nat := 6

  /** Seconds allotted to a question of each difficulty. */
  function DifficultyTime(d: Difficulty): (secs: nat)
    ensures 20 <= secs <= 120
    ensures d == Easy <==> secs == 20
    ensures d == Medium <==> secs == 60
    ensures d == Hard <==> secs == 120
  {
    match d
    case Easy => 20
    case Medium => 60
    case Hard => 120
  }

  /** Two questions agree on everything except the remaining time. */
  predicate SameContent(a: Question, b: Question) {
    a.(timeLeft := None) == b.(timeLeft := None)
  }

  /** A question exists at the cursor (`questions[currentIndex]` is defined). */
  predicate HasCurrent(s: Session) {
    0 <= s.currentIndex < |s.questions|
  }

  /** The question at the cursor, if any. */
  function Current(s: Session): Option<Question> {
    if HasCurrent(s) then Some(s.questions[s.currentIndex]) else None
  }

  /** Replaces the question at the cursor, leaving everything else alone. */
  function WithCurrent(s: Session, q: Question): (r: Session)
    requires HasCurrent(s)
    ensures HasCurrent(r) && Current(r) == Some(q)
    ensures r.status == s.status && r.user == s.user && r.currentIndex == s.currentIndex
    ensures |r.questions| == |s.questions|
    ensures forall j :: 0 <= j < |s.questions| && j != s.currentIndex ==> r.questions[j] == s.questions[j]
  {
    s.(questions := s.questions[s.currentIndex := q])
  }

  /** The cursor lies within the list or just past its end. */
  predicate CursorInRange(s: Session) {
    0 <= s.currentIndex <= |s.questions|
  }

  /** No two questions share an id. */
  predicate UniqueIds(qs: seq<Question>) {
    forall i, j :: 0 <= i < j < |qs| ==> qs[i].id != qs[j].id
  }

  /** Some question in the list carries the id. */
  predicate HasId(qs: seq<Question>, id: int) {
    exists i :: 0 <= i < |qs| && qs[i].id == id
  }

  /** Every question carries a remaining time. */
  predicate Timed(qs: seq<Question>) {
    forall i :: 0 <= i < |qs| ==> qs[i].timeLeft.Some?
  }

  /** Number of questions flagged as answered. */
  function CountAnswered(qs: seq<Question>): (n: nat)
    ensures n <= |qs|
  {
    if |qs| == 0 then 0
    else (if qs[0].isAnswered then 1 else 0) + CountAnswered(qs[1..])
  }

  /** Sum of the questions' scores. */
  function SumScores(qs: seq<Question>): int {
    if |qs| == 0 then 0 else qs[0].score + SumScores(qs[1..])
  }
}

=== FILE: lifecycle.dfy ===
/**
  The guarded status transitions shared, line for line, by both manager
  versions: `getCurrentQuestion`, `pause`, `resume` and `submit`.
 */
module Lifecycle {
  import opened InterviewTypes

  /**
    `getCurrentQuestion`: nothing on a completed or paused session; otherwise
    a ready session starts, and the cursor's question is returned, or the
    session is forced to completed when the cursor runs past the end.
   */
  function GetCurrentQuestion(s: Session): (r: Reply<Option<Question>>)
    ensures r.session.questions == s.questions
    ensures r.session.currentIndex == s.currentIndex
    ensures r.session.user == s.user
    ensures s.status == Completed || s.status == Paused ==> r.session == s && r.value == None
    ensures s.status == Ready || s.status == InProgress ==>
              if HasCurrent(s)
              then r.session.status == InProgress && r.value == Some(s.questions[s.currentIndex])
              else r.session.status == Completed && r.value == None
    ensures r.value.Some? <==> (s.status == Ready || s.status == InProgress) && HasCurrent(s)
  {
    if s.status == Completed then Reply(s, None)
    else
      var started := if s.status == Ready then s.(status := InProgress) else s;
      if started.status != InProgress then Reply(started, None)
      else if !HasCurrent(started) then Reply(started.(status := Completed), None)
      else Reply(started, Some(started.questions[started.currentIndex]))
  }

  /** `pause`: only an in-progress session pauses. */
  function Pause(s: Session): (r: Session)
    ensures s.status == InProgress ==> r == s.(status := Paused)
    ensures s.status != InProgress ==> r == s
  {
    if s.status == InProgress then s.(status := Paused) else s
  }

  /** `resume`: only a paused session resumes. */
  function Resume(s: Session): (r: Session)
    ensures s.status == Paused ==> r == s.(status := InProgress)
    ensures s.status != Paused ==> r == s
  {
    if s.status == Paused then s.(status := InProgress) else s
  }

  /** `submit`: always completes, whatever the state. */
  function Submit(s: Session): (r: Session)
    ensures r.status == Completed
    ensures r.questions == s.questions && r.currentIndex == s.currentIndex && r.user == s.user
  {
    s.(status := Completed)
  }

  /** Pausing then resuming an in-progress session restores it exactly, and vice versa. */
  lemma PauseResumeInverse(s: Session)
    ensures s.status == InProgress ==> Resume(Pause(s)) == s
    ensures s.status == Paused ==> Pause(Resume(s)) == s
    ensures s.status == Ready || s.status == Completed ==> Pause(s) == s && Resume(s) == s
  {
  }

  /** A second `getCurrentQuestion` returns the same answer and changes nothing more. */
  lemma GetCurrentQuestionIdempotent(s: Session)
    ensures GetCurrentQuestion(GetCurrentQuestion(s).session).session == GetCurrentQuestion(s).session
    ensures GetCurrentQuestion(GetCurrentQuestion(s).session).value == GetCurrentQuestion(s).value
  {
  }

  /** The cursor range and the question list are untouched by every guarded transition. */
  lemma TransitionsKeepQuestions(s: Session)
    ensures CursorInRange(s) ==> CursorInRange(GetCurrentQuestion(s).session)
    ensures Pause(s).questions == s.questions && Resume(s).questions == s.questions
    ensures Pause(s).currentIndex == s.currentIndex && Resume(s).currentIndex == s.currentIndex
  {
  }
}

=== FILE: protocol.dfy ===
/**
  Client message kinds and their wire names. The source and the compiled
  build disagree on one name: the source build's message types name the
  question request `get_question`, the compiled handler matches `GET_QUESTION`.
 */
module Protocol {
  import opened InterviewTypes

  datatype ClientKind = Auth | Answer | Pause | Resume | GetInterview | Heartbeat | GetQuestion | GetAnswered

  /** `ClientMessageType` of the source build. */
  function SrcWireName(k: ClientKind): string {
    match k
    case Auth => "auth"
    case Answer => "answer"
    case Pause => "pause"
    case Resume => "resume"
    case GetInterview => "get_interview"
    case Heartbeat => "heartbeat"
    case GetQuestion => "get_question"
    case GetAnswered => "get_answered"
  }

  /** `ClientMessageType` of the compiled build. */
  function DistWireName(k: ClientKind): string {
    match k
    case GetQuestion => "GET_QUESTION"
    case _ => SrcWireName(k)
  }

  /** The `switch (data.type)` of the source handler: the kind whose name matches, if any. */
  function SrcKindOf(t: string): (k: Option<ClientKind>)
    ensures k.Some? ==> SrcWireName(k.value) == t
    ensures k.None? ==> forall c :: SrcWireName(c) != t
  {
    if t == "auth" then Some(Auth)
    else if t == "answer" then Some(Answer)
    else if t == "pause" then Some(Pause)
    else if t == "resume" then Some(Resume)
    else if t == "get_interview" then Some(GetInterview)
    else if t == "heartbeat" then Some(Heartbeat)
    else if t == "get_question" then Some(GetQuestion)
    else if t == "get_answered" then Some(GetAnswered)
    else None
  }

  /** The `switch (data.type)` of the compiled handler. */
  function DistKindOf(t: string): (k: Option<ClientKind>)
    ensures k.Some? ==> DistWireName(k.value) == t
    ensures k.None? ==> forall c :: DistWireName(c) != t
  {
    if t == "GET_QUESTION" then Some(GetQuestion)
    else if t == "get_question" then None
    else SrcKindOf(t)
  }

  /** Decoding inverts the wire names of each build. */
  lemma WireNamesRoundTrip(k: ClientKind)
    ensures SrcKindOf(SrcWireName(k)) == Some(k)
    ensures DistKindOf(DistWireName(k)) == Some(k)
  {
  }

  /**
    The builds agree on every name but one: the source's `get_question`
    is unknown to the compiled handler and the compiled name is unknown
    to the source handler.
   */
  lemma GetQuestionMismatch(k: ClientKind)
    ensures SrcWireName(k) == DistWireName(k) <==> k != GetQuestion
    ensures DistKindOf(SrcWireName(GetQuestion)) == None
    ensures SrcKindOf(DistWireName(GetQuestion)) == None
  {
  }

  /** Fields a client message payload may carry; absent ones are `None`. */
  datatype Payload = Payload(interviewId: Option<int>, answer: Option<string>, score: Option<int>, token: Option<string>)

  /** An inbound frame: text that is not JSON, or a parsed `{type, payload}` envelope. */
  datatype Inbound = Malformed | Envelope(msgType: string, payload: Payload)

  /** JavaScript truthiness of an id: present and not 0. */
  predicate Truthy(id: Option<int>) {
    id.Some? && id.value != 0
  }
}

=== FILE: session_cache.dfy ===
/**
  The session cache adapter: a key/value store holding one snapshot per
  interview under the key `interview:<id>`. Saving writes the manager's
  questions, user, status and cursor; loading rebuilds a manager through a
  constructor and then restores status and cursor.
 */
module SessionCache {
  import opened InterviewTypes
  import SrcManager
  import DistManager

  /** The stored state object: exactly the four fields the adapter saves. */
  datatype Snapshot = Snapshot(questions: seq<Question>, user: User, status: Status, currentIndex: int)

  /** The shared store, indexed by key string. */
  type Store = map<string, Snapshot>

  const Prefix: string := "interview:"

  function DigitChar(d: nat): (c: char)
    requires d < 10
    ensures '0' <= c <= '9'
  {
    "0123456789"[d]
  }

  /** Decimal rendering of a natural number, most significant digit first. */
  function Decimal(n: nat): (s: string)
    ensures |s| >= 1
    ensures forall i :: 0 <= i < |s| ==> '0' <= s[i] <= '9'
    decreases n
  {
    if n < 10 then [DigitChar(n)] else Decimal(n / 10) + [DigitChar(n % 10)]
  }

  /** Template-literal rendering of an integer id. */
  function IdText(id: int): (s: string)
    ensures |s| >= 1
  {
    if id < 0 then "-" + Decimal(-id) else Decimal(id)
  }

  /** The key every adapter operation uses for an interview. */
  function Key(id: int): (k: string)
    ensures IsSessionKey(k)
    ensures |k| > |Prefix|
  {
    Prefix + IdText(id)
  }

  /** Keys matched by the pattern `interview:*`. */
  predicate IsSessionKey(k: string) {
    |k| >= |Prefix| && k[..|Prefix|] == Prefix
  }

  lemma {:induction false} DecimalInjective(a: nat, b: nat)
    requires Decimal(a) == Decimal(b)
    ensures a == b
    decreases a
  {
    if a < 10 && b < 10 {
      assert Decimal(a)[0] == DigitChar(a);
    } else if a >= 10 && b >= 10 {
      var da, db := Decimal(a), Decimal(b);
      assert da[|da| - 1] == DigitChar(a % 10);
      assert db[|db| - 1] == DigitChar(b % 10);
      assert da[..|da| - 1] == Decimal(a / 10);
      assert db[..|db| - 1] == Decimal(b / 10);
      DecimalInjective(a / 10, b / 10);
    }
  }

  /** A rendered id starts with a minus sign exactly when it is negative. */
  lemma IdTextSign(id: int)
    ensures IdText(id)[0] == '-' <==> id < 0
  {
    if id >= 0 {
      assert IdText(id)[0] == Decimal(id)[0];
    }
  }

  /** Rendered ids are distinct for distinct ids. */
  lemma IdTextInjective(a: int, b: int)
    requires IdText(a) == IdText(b)
    ensures a == b
  {
    IdTextSign(a);
    IdTextSign(b);
    if a < 0 {
      assert IdText(a)[1..] == Decimal(-a);
      assert IdText(b)[1..] == Decimal(-b);
      DecimalInjective(-a, -b);
    } else {
      DecimalInjective(a, b);
    }
  }

  /** Distinct ids never share a key. */
  lemma KeyInjective(a: int, b: int)
    ensures Key(a) == Key(b) ==> a == b
  {
    if Key(a) == Key(b) {
      assert IdText(a) == Key(a)[|Prefix|..];
      assert IdText(b) == Key(b)[|Prefix|..];
      IdTextInjective(a, b);
    }
  }

  /** The state `setInterviewSession` serialises. */
  function ToSnapshot(s: Session): (snap: Snapshot)
    ensures snap.questions == s.questions && snap.user == s.user
    ensures snap.status == s.status && snap.currentIndex == s.currentIndex
  {
    Snapshot(s.questions, s.user, s.status, s.currentIndex)
  }

  /** `setInterviewSession`: writes the session's snapshot under its key and touches no other key. */
  function Save(store: Store, id: int, s: Session): (r: Store)
    ensures r.Keys == store.Keys + {Key(id)}
    ensures r[Key(id)] == ToSnapshot(s)
    ensures forall k :: k in store && k != Key(id) ==> r[k] == store[k]
  {
    store[Key(id) := ToSnapshot(s)]
  }

  /** Rebuilds a manager as `getInterviewSession` does, with the given constructor's timers. */
  function Restore(constructed: Session, snap: Snapshot): Session {
    constructed.(status := snap.status, currentIndex := snap.currentIndex)
  }

  /**
    `getInterviewSession` (source version): null for an absent key; otherwise
    a manager rebuilt by the source constructor, whose `ready`/0 start is then
    overwritten by the saved status and cursor.
   */
  function Load(store: Store, id: int): (r: Option<Session>)
    ensures Key(id) !in store ==> r == None
    ensures Key(id) in store ==>
              var snap := store[Key(id)];
              && r.Some?
              && r.value.status == snap.status
              && r.value.currentIndex == snap.currentIndex
              && r.value.user == snap.user
              && |r.value.questions| == |snap.questions|
              && (forall i :: 0 <= i < |snap.questions| ==>
                    SameContent(r.value.questions[i], snap.questions[i])
                    && r.value.questions[i].timeLeft == Some(DifficultyTime(snap.questions[i].difficulty)))
  {
    if Key(id) !in store then None
    else
      var snap := store[Key(id)];
      Some(Restore(SrcManager.New(snap.questions, snap.user), snap))
  }

  /**
    `getInterviewSession` as the compiled handler sees it: the same rebuild
    through the compiled constructor, which keeps saved timers.
   */
  function LoadDist(store: Store, id: int): (r: Option<Session>)
    ensures Key(id) !in store ==> r == None
    ensures Key(id) in store ==>
              var snap := store[Key(id)];
              && r.Some?
              && r.value.status == snap.status
              && r.value.currentIndex == snap.currentIndex
              && r.value.user == snap.user
              && |r.value.questions| == |snap.questions|
              && (forall i :: 0 <= i < |snap.questions| ==> SameContent(r.value.questions[i], snap.questions[i]))
              && (forall i :: 0 <= i < |snap.questions| ==>
                    r.value.questions[i].timeLeft ==
                      (if snap.questions[i].timeLeft.Some? then snap.questions[i].timeLeft
                       else Some(DifficultyTime(snap.questions[i].difficulty))))
              && (Timed(snap.questions) ==> r.value.questions == snap.questions)
  {
    if Key(id) !in store then None
    else
      var snap := store[Key(id)];
      Some(Restore(DistManager.New(snap.questions, snap.user), snap))
  }

  /** `deleteInterviewSession`: removes the interview's key and nothing else. */
  function Delete(store: Store, id: int): (r: Store)
    ensures r.Keys == store.Keys - {Key(id)}
    ensures forall k :: k in r ==> r[k] == store[k]
  {
    store - {Key(id)}
  }

  /** `clearAllInterviewSessions`: removes every `interview:*` key and keeps the rest. */
  function ClearAll(store: Store): (r: Store)
    ensures forall k :: k in r <==> k in store && !IsSessionKey(k)
    ensures forall k :: k in r ==> r[k] == store[k]
  {
    map k | k in store && !IsSessionKey(k) :: store[k]
  }

  /**
    Round trip through the source adapter: status, cursor, user and every
    question's id, text, answer, score and flags come back; each timer is
    reset to the difficulty-table value.
   */
  lemma SaveLoadRoundTrip(store: Store, id: int, s: Session)
    ensures Load(Save(store, id, s), id).Some?
    ensures Load(Save(store, id, s), id).value.status == s.status
    ensures Load(Save(store, id, s), id).value.currentIndex == s.currentIndex
    ensures Load(Save(store, id, s), id).value.user == s.user
    ensures Load(Save(store, id, s), id).value.questions == SrcManager.New(s.questions, s.user).questions
    ensures |Load(Save(store, id, s), id).value.questions| == |s.questions|
    ensures forall i :: 0 <= i < |s.questions| ==>
              SameContent(Load(Save(store, id, s), id).value.questions[i], s.questions[i])
              && Load(Save(store, id, s), id).value.questions[i].timeLeft == Some(DifficultyTime(s.questions[i].difficulty))
  {
  }

  /** The source round trip is exact precisely when every timer already equals its table value. */
  lemma SaveLoadExactIff(store: Store, id: int, s: Session)
    ensures Load(Save(store, id, s), id) == Some(s) <==>
              forall i :: 0 <= i < |s.questions| ==> s.questions[i].timeLeft == Some(DifficultyTime(s.questions[i].difficulty))
  {
    var back := Load(Save(store, id, s), id).value;
    if forall i :: 0 <= i < |s.questions| ==> s.questions[i].timeLeft == Some(DifficultyTime(s.questions[i].difficulty)) {
      assert back.questions == s.questions;
    }
  }

  /** Round trip through the compiled adapter reproduces a timed session exactly. */
  lemma SaveLoadDistRoundTrip(store: Store, id: int, s: Session)
    requires Timed(s.questions)
    ensures LoadDist(Save(store, id, s), id) == Some(s)
  {
  }

  /** Saving or deleting one interview leaves every other interview's load unchanged. */
  lemma OtherIdsUntouched(store: Store, a: int, b: int, s: Session)
    requires a != b
    ensures Load(Save(store, a, s), b) == Load(store, b)
    ensures LoadDist(Save(store, a, s), b) == LoadDist(store, b)
    ensures Load(Delete(store, a), b) == Load(store, b)
    ensures LoadDist(Delete(store, a), b) == LoadDist(store, b)
  {
    KeyInjective(a, b);
  }

  /** After a delete, loading that interview finds nothing. */
  lemma DeleteThenLoad(store: Store, id: int)
    ensures Load(Delete(store, id), id) == None
    ensures LoadDist(Delete(store, id), id) == None
  {
  }

  /** After clearing, no interview loads, and keys outside the pattern are kept. */
  lemma ClearAllThenLoad(store: Store, id: int)
    ensures Load(ClearAll(store), id) == None
    ensures LoadDist(ClearAll(store), id) == None
    ensures forall k :: k in store && !IsSessionKey(k) ==> k in ClearAll(store)
  {
  }
}

=== FILE: src_handler.dfy ===
/**
  The source build's message handler (`handleWSMessage`) and its interval
  ticker, as steps over one connection and the session cache. The token
  check of AUTH is an input: the verified user id, or nothing.
 */
module SrcHandler {
  import opened InterviewTypes
  import opened Protocol
  import SrcManager
  import Lifecycle
  import opened SessionCache

  /**
    The connection's interval timer. AUTH arms the `Outer` one; when it
    expires with a next question it arms an `Inner` one, whose own expiry
    arms nothing. Each remembers the interview id its closure captured.
   */
  datatype Ticker = Idle | Outer(interviewId: Option<int>) | Inner(interviewId: Option<int>)

  /** The socket's own fields: authenticated user id, interview id, ticker, and whether it is open. */
  datatype Conn = Conn(user: Option<int>, interviewId: Option<int>, ticker: Ticker, open: bool)

  /** Server to client messages of the source build. */
  datatype Out =
    | AuthSuccess
    | QuestionOut(question: Question)
    | CompletedOut(report: SrcManager.Report)
    | ErrorOut(text: string)
    | InfoOut(text: string)
    | InterviewState(status: Status, currentIndex: int, currentQuestion: Option<Question>)
    | CurrentQuestionState(current: Option<Question>)
    | TimeUpdate(questionId: int, timeLeft: Option<int>)

  /** The outcome of one inbound message or one tick. */
  datatype Step = Step(conn: Conn, store: Store, out: seq<Out>)

  const NotInMemory: string :=
    "Interview not found in memory. Please return to the home page and upload your resume again to start a new interview."

  /** `getInterviewSession(ws.interviewId!)`: an undefined id names a key that is never written. */
  function LoadAt(store: Store, id: Option<int>): (r: Option<Session>)
    ensures id.None? ==> r.None?
    ensures id.Some? ==> r == Load(store, id.value)
  {
    if id.None? then None else Load(store, id.value)
  }

  /** One inbound frame. `verified` is what token verification yields for an AUTH message. */
  function Handle(conn: Conn, store: Store, msg: Inbound, verified: Option<int>): (r: Step)
    ensures msg.Malformed? ==> r == Step(conn, store, [ErrorOut("Invalid JSON format")])
    ensures msg.Envelope? && SrcKindOf(msg.msgType) !in {Some(Auth), Some(Answer), Some(Pause), Some(Resume), Some(GetInterview), Some(GetQuestion)} ==>
              r == Step(conn, store, [ErrorOut("Unknown message type: " + msg.msgType)])
  {
    match msg
    case Malformed => Step(conn, store, [ErrorOut("Invalid JSON format")])
    case Envelope(t, p) =>
      match SrcKindOf(t)
      case Some(Auth) => HandleAuth(conn, store, p, verified)
      case Some(Answer) => HandleAnswer(conn, store, p)
      case Some(Pause) => HandlePause(conn, store)
      case Some(Resume) => HandleResume(conn, store)
      case Some(GetInterview) => HandleGetInterview(conn, store)
      case Some(GetQuestion) => HandleGetQuestion(conn, store)
      case _ => Step(conn, store, [ErrorOut("Unknown message type: " + t)])
  }

  /**
    AUTH after token verification: a rejected token closes the socket; an
    accepted one binds user and interview, and when the cached session has
    a current question sends it and arms a ticker unless one is armed. The
    lazy start of the session is not written back.
   */
  function HandleAuth(conn: Conn, store: Store, p: Payload, verified: Option<int>): (r: Step)
    ensures r.store == store
    ensures verified.None? ==> r == Step(conn.(open := false), store, [ErrorOut("Invalid token")])
    ensures verified.Some? ==>
              && r.conn.user == verified && r.conn.interviewId == p.interviewId && r.conn.open == conn.open
              && |r.out| >= 1 && r.out[0] == AuthSuccess
              && (|r.out| == 2 <==> LoadAt(store, p.interviewId).Some? && Lifecycle.GetCurrentQuestion(LoadAt(store, p.interviewId).value).value.Some?)
              && (|r.out| == 2 ==> r.out[1] == QuestionOut(Lifecycle.GetCurrentQuestion(LoadAt(store, p.interviewId).value).value.value))
              && (r.conn.ticker != conn.ticker ==> conn.ticker.Idle? && |r.out| == 2 && r.conn.ticker == Outer(p.interviewId))
              && (conn.ticker.Idle? && |r.out| == 2 ==> r.conn.ticker == Outer(p.interviewId))
  {
    match verified
    case None => Step(conn.(open := false), store, [ErrorOut("Invalid token")])
    case Some(u) =>
      var bound := conn.(user := Some(u), interviewId := p.interviewId);
      match LoadAt(store, p.interviewId)
      case None => Step(bound, store, [AuthSuccess])
      case Some(m) =>
        match Lifecycle.GetCurrentQuestion(m).value
        case None => Step(bound, store, [AuthSuccess])
        case Some(q) =>
          var armed := if bound.ticker.Idle? then bound.(ticker := Outer(p.interviewId)) else bound;
          Step(armed, store, [AuthSuccess, QuestionOut(q)])
  }

  /**
    ANSWER: rejected without interview id or user, or without a cached
    session, changing nothing. Otherwise the answer is recorded with the
    score defaulting to 0 and persisted, and the next question or the
    completed report is sent.
   */
  function HandleAnswer(conn: Conn, store: Store, p: Payload): (r: Step)
    ensures r.conn == conn
    ensures |r.out| == 1
    ensures !Truthy(conn.interviewId) || conn.user.None? ==> r == Step(conn, store, [ErrorOut("Not authenticated")])
    ensures Truthy(conn.interviewId) && conn.user.Some? && Key(conn.interviewId.value) !in store ==>
              r == Step(conn, store, [ErrorOut("Interview not found")])
    ensures Truthy(conn.interviewId) && conn.user.Some? && Key(conn.interviewId.value) in store ==>
              var id := conn.interviewId.value;
              var after := SrcManager.Answer(Load(store, id).value, p.answer, p.score.GetOr(0)).session;
              && r.store == Save(store, id, after)
              && (r.out[0].QuestionOut? <==> (after.status == Ready || after.status == InProgress) && HasCurrent(after))
              && (r.out[0].QuestionOut? ==> r.out[0].question == after.questions[after.currentIndex])
              && (!r.out[0].QuestionOut? ==>
                    && r.out[0].CompletedOut?
                    && r.out[0].report.questions == SrcManager.GetReport(after).questions
                    && r.out[0].report.user == after.user
                    && r.out[0].report.totalScore == SumScores(after.questions)
                    && r.out[0].report.status == (if after.status == Ready || after.status == InProgress then Completed else after.status))
  {
    if !Truthy(conn.interviewId) || conn.user.None? then Step(conn, store, [ErrorOut("Not authenticated")])
    else
      var id := conn.interviewId.value;
      match Load(store, id)
      case None => Step(conn, store, [ErrorOut("Interview not found")])
      case Some(m) =>
        var answered := SrcManager.Answer(m, p.answer, p.score.GetOr(0)).session;
        var saved := Save(store, id, answered);
        var next := Lifecycle.GetCurrentQuestion(answered);
        match next.value
        case Some(q) => Step(conn, saved, [QuestionOut(q)])
        case None => Step(conn, saved, [CompletedOut(SrcManager.GetReport(next.session))])
  }

  /** PAUSE: pauses and persists the cached session when there is one; silent otherwise. */
  function HandlePause(conn: Conn, store: Store): (r: Step)
    ensures r.conn == conn
    ensures LoadAt(store, conn.interviewId).None? ==> r == Step(conn, store, [])
    ensures LoadAt(store, conn.interviewId).Some? ==>
              && r.store == Save(store, conn.interviewId.value, Lifecycle.Pause(LoadAt(store, conn.interviewId).value))
              && r.out == [InfoOut("Interview paused")]
  {
    match LoadAt(store, conn.interviewId)
    case None => Step(conn, store, [])
    case Some(m) => Step(conn, Save(store, conn.interviewId.value, Lifecycle.Pause(m)), [InfoOut("Interview paused")])
  }

  /** RESUME: resumes and persists, then re-sends the current question if there is one. */
  function HandleResume(conn: Conn, store: Store): (r: Step)
    ensures r.conn == conn
    ensures LoadAt(store, conn.interviewId).None? ==> r == Step(conn, store, [])
    ensures LoadAt(store, conn.interviewId).Some? ==>
              var resumed := Lifecycle.Resume(LoadAt(store, conn.interviewId).value);
              && r.store == Save(store, conn.interviewId.value, resumed)
              && 1 <= |r.out| <= 2 && r.out[0] == InfoOut("Interview resumed")
              && (|r.out| == 2 <==> Lifecycle.GetCurrentQuestion(resumed).value.Some?)
              && (|r.out| == 2 ==> r.out[1] == QuestionOut(Lifecycle.GetCurrentQuestion(resumed).value.value))
  {
    match LoadAt(store, conn.interviewId)
    case None => Step(conn, store, [])
    case Some(m) =>
      var resumed := Lifecycle.Resume(m);
      var saved := Save(store, conn.interviewId.value, resumed);
      match Lifecycle.GetCurrentQuestion(resumed).value
      case Some(q) => Step(conn, saved, [InfoOut("Interview resumed"), QuestionOut(q)])
      case None => Step(conn, saved, [InfoOut("Interview resumed")])
  }

  /**
    GET_INTERVIEW: reports the status read before the lazy start, the
    cursor, and the current question, without writing anything back.
   */
  function HandleGetInterview(conn: Conn, store: Store): (r: Step)
    ensures r.conn == conn && r.store == store && |r.out| == 1
    ensures LoadAt(store, conn.interviewId).None? ==> r.out == [ErrorOut(NotInMemory)]
    ensures LoadAt(store, conn.interviewId).Some? ==>
              var m := LoadAt(store, conn.interviewId).value;
              r.out == [InterviewState(m.status, m.currentIndex, Lifecycle.GetCurrentQuestion(m).value)]
  {
    match LoadAt(store, conn.interviewId)
    case None => Step(conn, store, [ErrorOut(NotInMemory)])
    case Some(m) => Step(conn, store, [InterviewState(m.status, m.currentIndex, Lifecycle.GetCurrentQuestion(m).value)])
  }

  /** GET_QUESTION: only reports the current question; it never adds one and writes nothing. */
  function HandleGetQuestion(conn: Conn, store: Store): (r: Step)
    ensures r.conn == conn && r.store == store && |r.out| == 1
    ensures LoadAt(store, conn.interviewId).None? ==> r.out == [ErrorOut("Interview not found")]
    ensures LoadAt(store, conn.interviewId).Some? ==>
              r.out == [CurrentQuestionState(Lifecycle.GetCurrentQuestion(LoadAt(store, conn.interviewId).value).value)]
  {
    match LoadAt(store, conn.interviewId)
    case None => Step(conn, store, [ErrorOut("Interview not found")])
    case Some(m) => Step(conn, store, [CurrentQuestionState(Lifecycle.GetCurrentQuestion(m).value)])
  }

  /**
    Rehydration for the ticker: as written every reload goes through the
    source constructor (`keepTimers` false); the corrected ticker keeps the
    saved timers, as the compiled constructor does.
   */
  function LoadFor(store: Store, id: Option<int>, keepTimers: bool): (r: Option<Session>)
    ensures id.None? || Key(id.value) !in store ==> r.None?
    ensures id.Some? && Key(id.value) in store ==> r.Some?
  {
    if id.None? then None
    else if keepTimers then LoadDist(store, id.value)
    else Load(store, id.value)
  }

  /**
    The body shared by both interval callbacks: reload, `decrementTimer`,
    persist; stop if no current question; otherwise send the time, and when
    the returned time is at most 0 record an empty zero-score answer,
    persist, and send the next question (arming `rearm`) or the report.
   */
  function TickBody(conn: Conn, store: Store, id: Option<int>, rearm: Ticker, keepTimers: bool): Step {
    match LoadFor(store, id, keepTimers)
    case None => Step(conn, store, [])
    case Some(m) =>
      var dec := SrcManager.DecrementTimer(m);
      var saved := Save(store, id.value, dec.session);
      var cur := Lifecycle.GetCurrentQuestion(dec.session);
      match cur.value
      case None => Step(conn, saved, [])
      case Some(q) =>
        var update := TimeUpdate(q.id, q.timeLeft);
        if dec.value.Some? && dec.value.value <= 0 then
          var answered := SrcManager.Answer(cur.session, Some(""), 0);
          var saved' := Save(saved, id.value, answered.session);
          match answered.value
          case Some(next) => Step(conn.(ticker := rearm), saved', [update, QuestionOut(next)])
          case None => Step(conn.(ticker := Idle), saved', [update, CompletedOut(SrcManager.GetReport(answered.session))])
        else Step(conn, saved, [update])
  }

  /**
    One firing of the connection's ticker, as written: the session is
    reloaded through the source constructor, and the inner ticker does not
    re-arm on its expiry.
   */
  function Tick(conn: Conn, store: Store): (r: Step)
    ensures conn.ticker.Idle? ==> r == Step(conn, store, [])
    ensures !conn.ticker.Idle? && LoadAt(store, conn.ticker.interviewId).None? ==> r == Step(conn, store, [])
    ensures !conn.ticker.Idle? && LoadAt(store, conn.ticker.interviewId).Some? ==>
              var dec := SrcManager.DecrementTimer(LoadAt(store, conn.ticker.interviewId).value);
              && Key(conn.ticker.interviewId.value) in r.store
              && (Lifecycle.GetCurrentQuestion(dec.session).value.None? ==>
                    r.out == [] && r.conn == conn && r.store == Save(store, conn.ticker.interviewId.value, dec.session))
              && (r.conn.ticker != conn.ticker ==> dec.value.Some? && dec.value.value <= 0)
              && (conn.ticker.Inner? && r.conn.ticker != conn.ticker ==> r.conn.ticker.Idle?)
  {
    match conn.ticker
    case Idle => Step(conn, store, [])
    case Outer(id) => TickBody(conn, store, id, Inner(id), false)
    case Inner(id) => TickBody(conn, store, id, Idle, false)
  }

  /**
    One firing with the evidently intended behaviour: saved timers survive
    the reload, and an expiry with a next question keeps the ticker armed.
   */
  function TickCorrected(conn: Conn, store: Store): (r: Step)
    ensures conn.ticker.Idle? ==> r == Step(conn, store, [])
    ensures !conn.ticker.Idle? && (conn.ticker.interviewId.None? || Key(conn.ticker.interviewId.value) !in store) ==>
              r == Step(conn, store, [])
  {
    if conn.ticker.Idle? then Step(conn, store, [])
    else TickBody(conn, store, conn.ticker.interviewId, conn.ticker, true)
  }

  /** A ticker armed on a cached interview whose current question is live. */
  predicate LiveCountdown(conn: Conn, store: Store) {
    && !conn.ticker.Idle?
    && conn.ticker.interviewId.Some?
    && Key(conn.ticker.interviewId.value) in store
    && var snap := store[Key(conn.ticker.interviewId.value)];
    && snap.status == InProgress
    && 0 <= snap.currentIndex < |snap.questions|
  }

  /** The remaining time saved for the current question of the ticker's interview. */
  function SavedTime(conn: Conn, store: Store): Option<int>
    requires LiveCountdown(conn, store)
  {
    var snap := store[Key(conn.ticker.interviewId.value)];
    snap.questions[snap.currentIndex].timeLeft
  }

  /** The difficulty-table time of that question. */
  function TableTime(conn: Conn, store: Store): int
    requires LiveCountdown(conn, store)
  {
    var snap := store[Key(conn.ticker.interviewId.value)];
    DifficultyTime(snap.questions[snap.currentIndex].difficulty)
  }

  /**
    As written, a tick on a live countdown always saves the table time minus
    one, whatever time was saved before: it never expires and sends one
    time update.
   */
  lemma TickResetsCountdown(conn: Conn, store: Store)
    requires LiveCountdown(conn, store)
    ensures LiveCountdown(Tick(conn, store).conn, Tick(conn, store).store)
    ensures Tick(conn, store).conn == conn
    ensures SavedTime(conn, Tick(conn, store).store) == Some(TableTime(conn, store) - 1)
    ensures TableTime(conn, Tick(conn, store).store) == TableTime(conn, store)
    ensures |Tick(conn, store).out| == 1 && Tick(conn, store).out[0].TimeUpdate?
  {
  }

  /** Two snapshots that differ at most in their saved timers load as the same session. */
  lemma LoadIgnoresTimers(a: Store, b: Store, id: int)
    requires Key(id) in a && Key(id) in b
    requires var x, y := a[Key(id)], b[Key(id)];
             && x.user == y.user && x.status == y.status && x.currentIndex == y.currentIndex
             && |x.questions| == |y.questions|
             && forall i :: 0 <= i < |x.questions| ==> SameContent(x.questions[i], y.questions[i])
    ensures Load(a, id) == Load(b, id)
  {
    var x, y := a[Key(id)], b[Key(id)];
    var la, lb := Load(a, id).value, Load(b, id).value;
    forall i | 0 <= i < |x.questions|
      ensures la.questions[i] == lb.questions[i]
    {
      assert x.questions[i].difficulty == x.questions[i].(timeLeft := None).difficulty;
      assert y.questions[i].difficulty == y.questions[i].(timeLeft := None).difficulty;
      assert la.questions[i] == la.questions[i].(timeLeft := None).(timeLeft := la.questions[i].timeLeft);
      assert lb.questions[i] == lb.questions[i].(timeLeft := None).(timeLeft := lb.questions[i].timeLeft);
    }
    assert la.questions == lb.questions;
  }

  /**
    As written, the outcome of a tick on a live countdown is a fixed point:
    ticking again saves the same snapshot, sends the same time and leaves
    the connection as it is, so the countdown stands still for good.
   */
  lemma TickIsStationary(conn: Conn, store: Store)
    requires LiveCountdown(conn, store)
    ensures Tick(Tick(conn, store).conn, Tick(conn, store).store) == Tick(conn, store)
  {
    TickResetsCountdown(conn, store);
    var first := Tick(conn, store);
    var id := conn.ticker.interviewId.value;
    var x, y := store[Key(id)], first.store[Key(id)];
    var m := Load(store, id).value;
    var dec := SrcManager.DecrementTimer(m);
    assert y == ToSnapshot(dec.session);
    forall i | 0 <= i < |x.questions|
      ensures SameContent(x.questions[i], y.questions[i])
    {
      assert SameContent(m.questions[i], x.questions[i]);
      if i != m.currentIndex {
        assert y.questions[i] == m.questions[i];
      }
    }
    LoadIgnoresTimers(store, first.store, id);
  }

  /**
    With saved timers kept, a tick on a live countdown with more than one
    second left saves exactly one second less and sends one time update.
   */
  lemma TickCorrectedCountsDown(conn: Conn, store: Store)
    requires LiveCountdown(conn, store)
    requires SavedTime(conn, store).Some? && SavedTime(conn, store).value > 1
    ensures LiveCountdown(TickCorrected(conn, store).conn, TickCorrected(conn, store).store)
    ensures TickCorrected(conn, store).conn == conn
    ensures SavedTime(conn, TickCorrected(conn, store).store) == Some(SavedTime(conn, store).value - 1)
    ensures |TickCorrected(conn, store).out| == 1 && TickCorrected(conn, store).out[0].TimeUpdate?
  {
  }

  /**
    With saved timers kept, the tick at one second left records the empty
    answer and moves the cursor on; a delivered next question keeps the
    ticker armed.
   */
  lemma TickCorrectedExpires(conn: Conn, store: Store)
    requires LiveCountdown(conn, store)
    requires SavedTime(conn, store) == Some(1)
    ensures var id := conn.ticker.interviewId.value;
            var snap := store[Key(id)];
            var after := TickCorrected(conn, store).store[Key(id)];
            && Key(id) in TickCorrected(conn, store).store
            && after.currentIndex == snap.currentIndex + 1
            && after.questions[snap.currentIndex].answer == Some("")
            && after.questions[snap.currentIndex].score == 0
    ensures var id := conn.ticker.interviewId.value;
            var snap := store[Key(id)];
            var r := TickCorrected(conn, store);
            && |r.out| == 2
            && r.out[0] == TimeUpdate(snap.questions[snap.currentIndex].id, Some(0))
    ensures var id := conn.ticker.interviewId.value;
            var snap := store[Key(id)];
            var r := TickCorrected(conn, store);
            snap.currentIndex + 1 < |snap.questions| ==>
              && r.out[1] == QuestionOut(LoadDist(store, id).value.questions[snap.currentIndex + 1])
              && r.conn.ticker == conn.ticker
    ensures var id := conn.ticker.interviewId.value;
            var snap := store[Key(id)];
            var r := TickCorrected(conn, store);
            var after := r.store[Key(id)];
            snap.currentIndex + 1 == |snap.questions| ==>
              && after.status == Completed
              && r.out[1] == CompletedOut(SrcManager.GetReport(Session(after.questions, after.user, after.status, after.currentIndex)))
              && r.conn.ticker.Idle?
  {
    var id := conn.ticker.interviewId.value;
    var snap := store[Key(id)];
    var m := LoadDist(store, id).value;
    assert m.questions[m.currentIndex].timeLeft == Some(1);
    var dec := SrcManager.DecrementTimer(m);
    assert dec.value == Some(0);
    var q := dec.session.questions[dec.session.currentIndex];
    assert q.id == snap.questions[snap.currentIndex].id;
    assert Lifecycle.GetCurrentQuestion(dec.session) == Reply(dec.session, Some(q));
    var answered := SrcManager.Answer(dec.session, Some(""), 0);
    SaveTwice(store, id, dec.session, answered.session);
    assert TickCorrected(conn, store).store == Save(store, id, answered.session);
  }

  /** A second save under the same key overrides the first. */
  lemma SaveTwice(store: Store, id: int, a: Session, b: Session)
    ensures Save(Save(store, id, a), id, b) == Save(store, id, b)
  {
  }

  /** A ready session holding two questions: the first tick takes `decrementTimer`'s 0 as expiry. */
  function TwoQuestionSession(): Session {
    var u := User(1, "Ada", "ada@example.com", "555");
    var q1 := Question(1, "first", Easy, Opinion, None, 0, false, Some(20));
    var q2 := Question(2, "second", Easy, Opinion, None, 0, false, Some(20));
    Session([q1, q2], u, Ready, 0)
  }

  /**
    As written, the first tick over an entry still cached as ready (AUTH
    starts the session only in memory) sees `decrementTimer`'s 0 as expiry:
    the first question is answered with "" one second after AUTH and the
    inner ticker is armed. This is the only way the inner ticker is armed.
   */
  lemma OuterTickerAnswersReadySession()
    ensures var r := Tick(Conn(Some(1), Some(7), Outer(Some(7)), true), Save(map[], 7, TwoQuestionSession()));
            && Key(7) in r.store
            && r.store[Key(7)].currentIndex == 1
            && r.store[Key(7)].questions[0].answer == Some("")
            && r.out == [TimeUpdate(1, Some(20)), QuestionOut(TwoQuestionSession().questions[1])]
            && r.conn.ticker.Inner?
  {
  }

  /**
    As written, the ticker armed by the outer ticker's expiry stops for good
    at its own expiry although it has just delivered a next question. The
    state shown here, an inner ticker over a ready entry, is not one the
    handler produces by itself: the inner ticker is armed only over an entry
    that is no longer ready, and there the timer reset keeps it from
    expiring, so the defect stays latent.
   */
  lemma InnerTickerDoesNotRearm()
    ensures var r := Tick(Conn(Some(1), Some(7), Inner(Some(7)), true), Save(map[], 7, TwoQuestionSession()));
            && r.out == [TimeUpdate(1, Some(20)), QuestionOut(TwoQuestionSession().questions[1])]
            && r.conn.ticker.Idle?
  {
  }

  /** Every cached session keeps its cursor within the list or just past it. */
  predicate StoreOk(store: Store) {
    forall k :: k in store ==> 0 <= store[k].currentIndex <= |store[k].questions|
  }

  /** The source build never creates a cache entry and never changes how many questions one holds. */
  predicate SameShape(before: Store, after: Store) {
    && after.Keys == before.Keys
    && forall k :: k in before ==> |after[k].questions| == |before[k].questions| && after[k].user == before[k].user
  }

  /** Writing back a session loaded from the same key keeps the shape, and the cursor bound if it holds. */
  lemma SaveKeepsShape(store: Store, id: int, s: Session)
    requires Key(id) in store
    requires |s.questions| == |store[Key(id)].questions| && s.user == store[Key(id)].user
    ensures SameShape(store, Save(store, id, s))
    ensures StoreOk(store) && CursorInRange(s) ==> StoreOk(Save(store, id, s))
  {
  }

  /** A session loaded from a store whose cursors are in range has its cursor in range. */
  lemma LoadedCursor(store: Store, id: int)
    requires StoreOk(store) && Key(id) in store
    ensures CursorInRange(Load(store, id).value)
  {
  }

  lemma AnswerKeepsStore(conn: Conn, store: Store, p: Payload)
    ensures SameShape(store, HandleAnswer(conn, store, p).store)
    ensures StoreOk(store) ==> StoreOk(HandleAnswer(conn, store, p).store)
  {
    if Truthy(conn.interviewId) && conn.user.Some? && Key(conn.interviewId.value) in store {
      var id := conn.interviewId.value;
      var m := Load(store, id).value;
      var answered := SrcManager.Answer(m, p.answer, p.score.GetOr(0)).session;
      if StoreOk(store) {
        LoadedCursor(store, id);
        SrcManager.StepInvariant(m, SrcManager.AnswerOp(p.answer, p.score.GetOr(0)));
      }
      SaveKeepsShape(store, id, answered);
    }
  }

  lemma PauseResumeKeepStore(conn: Conn, store: Store)
    ensures SameShape(store, HandlePause(conn, store).store)
    ensures SameShape(store, HandleResume(conn, store).store)
    ensures StoreOk(store) ==> StoreOk(HandlePause(conn, store).store) && StoreOk(HandleResume(conn, store).store)
  {
    if LoadAt(store, conn.interviewId).Some? {
      var id := conn.interviewId.value;
      var m := Load(store, id).value;
      if StoreOk(store) {
        LoadedCursor(store, id);
      }
      SaveKeepsShape(store, id, Lifecycle.Pause(m));
      SaveKeepsShape(store, id, Lifecycle.Resume(m));
    }
  }

  /**
    No inbound message makes the source build create a cache entry, change
    how many questions a session holds, or move a cursor out of range.
   */
  lemma HandleKeepsStore(conn: Conn, store: Store, msg: Inbound, verified: Option<int>)
    ensures SameShape(store, Handle(conn, store, msg, verified).store)
    ensures StoreOk(store) ==> StoreOk(Handle(conn, store, msg, verified).store)
  {
    if msg.Envelope? {
      var k := SrcKindOf(msg.msgType);
      if k == Some(Answer) {
        AnswerKeepsStore(conn, store, msg.payload);
      } else if k == Some(Pause) || k == Some(Resume) {
        PauseResumeKeepStore(conn, store);
      }
    }
  }

  /** The session a tick finally writes back for a loaded session `m`. */
  function TickWrite(m: Session): (w: Session)
    ensures |w.questions| == |m.questions| && w.user == m.user
    ensures CursorInRange(m) ==> CursorInRange(w)
  {
    var dec := SrcManager.DecrementTimer(m);
    var cur := Lifecycle.GetCurrentQuestion(dec.session);
    if cur.value.Some? && dec.value.Some? && dec.value.value <= 0
    then SrcManager.Answer(cur.session, Some(""), 0).session
    else dec.session
  }

  lemma TickBodyWrites(conn: Conn, store: Store, id: Option<int>, rearm: Ticker, keepTimers: bool)
    ensures LoadFor(store, id, keepTimers).None? ==> TickBody(conn, store, id, rearm, keepTimers).store == store
    ensures LoadFor(store, id, keepTimers).Some? ==>
              TickBody(conn, store, id, rearm, keepTimers).store == Save(store, id.value, TickWrite(LoadFor(store, id, keepTimers).value))
  {
    match LoadFor(store, id, keepTimers)
    case None =>
    case Some(m) =>
      var dec := SrcManager.DecrementTimer(m);
      var saved := Save(store, id.value, dec.session);
      var cur := Lifecycle.GetCurrentQuestion(dec.session);
      if cur.value.Some? && dec.value.Some? && dec.value.value <= 0 {
        var answered := SrcManager.Answer(cur.session, Some(""), 0).session;
        assert Save(saved, id.value, answered) == Save(store, id.value, answered);
      }
  }

  /** Neither does a tick, as written or corrected. */
  lemma TickBodyKeepsStore(conn: Conn, store: Store, id: Option<int>, rearm: Ticker, keepTimers: bool)
    ensures SameShape(store, TickBody(conn, store, id, rearm, keepTimers).store)
    ensures StoreOk(store) ==> StoreOk(TickBody(conn, store, id, rearm, keepTimers).store)
  {
    TickBodyWrites(conn, store, id, rearm, keepTimers);
    match LoadFor(store, id, keepTimers)
    case None =>
    case Some(m) =>
      var i := id.value;
      assert |m.questions| == |store[Key(i)].questions| && m.user == store[Key(i)].user;
      assert m.currentIndex == store[Key(i)].currentIndex;
      SaveKeepsShape(store, i, TickWrite(m));
  }

  lemma TickKeepsStore(conn: Conn, store: Store)
    ensures SameShape(store, Tick(conn, store).store)
    ensures SameShape(store, TickCorrected(conn, store).store)
    ensures StoreOk(store) ==> StoreOk(Tick(conn, store).store) && StoreOk(TickCorrected(conn, store).store)
  {
    match conn.ticker
    case Idle =>
    case Outer(id) =>
      TickBodyKeepsStore(conn, store, id, Inner(id), false);
      TickBodyKeepsStore(conn, store, id, conn.ticker, true);
    case Inner(id) =>
      TickBodyKeepsStore(conn, store, id, Idle, false);
      TickBodyKeepsStore(conn, store, id, conn.ticker, true);
  }
}

=== FILE: src_manager.dfy ===
/**
  The TypeScript `InterviewManager` (backend/src): `answer` advances the
  cursor and completes the session at the end; `decrementTimer` drives the
  countdown; the constructor always resets each timer from the table.
 */
module SrcManager {
  import opened InterviewTypes
  import Lifecycle

  /** A question with its timer reset from the difficulty table. */
  function TableTimed(q: Question): (r: Question)
    ensures SameContent(r, q)
    ensures r.timeLeft == Some(DifficultyTime(q.difficulty))
  {
    q.(timeLeft := Some(DifficultyTime(q.difficulty)))
  }

  /**
    The constructor: ready, cursor at 0, every incoming `timeLeft` replaced
    by the table value for the question's difficulty.
   */
  function New(questions: seq<Question>, user: User): (s: Session)
    ensures s.status == Ready && s.currentIndex == 0 && s.user == user
    ensures |s.questions| == |questions|
    ensures forall i :: 0 <= i < |questions| ==>
              SameContent(s.questions[i], questions[i])
              && s.questions[i].timeLeft == Some(DifficultyTime(questions[i].difficulty))
    ensures Timed(s.questions)
  {
    Session(seq(|questions|, i requires 0 <= i < |questions| => TableTimed(questions[i])), user, Ready, 0)
  }

  /**
    `decrementTimer`: returns 0 and changes nothing unless the session is in
    progress with a question at the cursor; otherwise counts that question's
    time down by one when positive and returns its new remaining time.
   */
  function DecrementTimer(s: Session): (r: Reply<Option<int>>)
    ensures s.status != InProgress || !HasCurrent(s) ==> r == Reply(s, Some(0))
    ensures s.status == InProgress && HasCurrent(s) ==>
              && r.session.currentIndex == s.currentIndex
              && |r.session.questions| == |s.questions|
              && var before := s.questions[s.currentIndex];
              var after := r.session.questions[s.currentIndex];
              && r.session == WithCurrent(s, after)
              && SameContent(after, before)
              && r.value == after.timeLeft
              && (before.timeLeft.Some? && before.timeLeft.value > 0 ==> after.timeLeft == Some(before.timeLeft.value - 1))
              && (before.timeLeft.None? || before.timeLeft.value <= 0 ==> after == before)
  {
    if s.status != InProgress then Reply(s, Some(0))
    else if !HasCurrent(s) then Reply(s, Some(0))
    else
      var q := s.questions[s.currentIndex];
      if q.timeLeft.Some? && q.timeLeft.value > 0 then
        var q' := q.(timeLeft := Some(q.timeLeft.value - 1));
        Reply(WithCurrent(s, q'), q'.timeLeft)
      else Reply(s, q.timeLeft)
  }

  /** Every question's remaining time is absent or non-negative. */
  predicate NonNegativeTimers(qs: seq<Question>) {
    forall i :: 0 <= i < |qs| && qs[i].timeLeft.Some? ==> qs[i].timeLeft.value >= 0
  }

  /** The countdown never goes below zero. */
  lemma DecrementTimerClamped(s: Session)
    requires NonNegativeTimers(s.questions)
    ensures NonNegativeTimers(DecrementTimer(s).session.questions)
    ensures DecrementTimer(s).value.Some? ==> DecrementTimer(s).value.value >= 0
  {
  }

  /**
    `answer`: with no question at the cursor returns nothing and changes
    nothing; otherwise records answer and score, zeroes the timer, moves the
    cursor on by one, and returns the next question, or completes the
    session and returns nothing when the cursor reaches the end.
   */
  function Answer(s: Session, text: Option<string>, score: int): (r: Reply<Option<Question>>)
    ensures !HasCurrent(s) ==> r == Reply(s, None)
    ensures HasCurrent(s) ==>
              var i := s.currentIndex;
              && r.session.currentIndex == i + 1
              && r.session.user == s.user
              && |r.session.questions| == |s.questions|
              && r.session.questions[i] == s.questions[i].(answer := text, score := score, timeLeft := Some(0))
              && (forall j :: 0 <= j < |s.questions| && j != i ==> r.session.questions[j] == s.questions[j])
              && (i + 1 < |s.questions| ==> r.session.status == s.status && r.value == Some(s.questions[i + 1]))
              && (i + 1 == |s.questions| ==> r.session.status == Completed && r.value == None)
  {
    if !HasCurrent(s) then Reply(s, None)
    else
      var q := s.questions[s.currentIndex];
      var recorded := WithCurrent(s, q.(answer := text, timeLeft := Some(0), score := score));
      var moved := recorded.(currentIndex := recorded.currentIndex + 1);
      if moved.currentIndex >= |moved.questions| then Reply(moved.(status := Completed), None)
      else Reply(moved, Some(moved.questions[moved.currentIndex]))
  }

  /** One projected question of the report (`getReport().questions[i]`). */
  datatype ReportRow = ReportRow(id: int, text: string, answer: string, score: int, difficulty: Difficulty)

  /** `getReport()`: candidate, status, total score and a projection of every question. */
  datatype Report = Report(user: User, status: Status, totalScore: int, questions: seq<ReportRow>)

  function Row(q: Question): ReportRow {
    ReportRow(q.id, q.text, q.answer.GetOr(""), q.score, q.difficulty)
  }

  function Rows(qs: seq<Question>): (rows: seq<ReportRow>)
    ensures |rows| == |qs|
    ensures forall i :: 0 <= i < |qs| ==> rows[i] == Row(qs[i])
  {
    seq(|qs|, i requires 0 <= i < |qs| => Row(qs[i]))
  }

  /** Sum of the projected rows' scores. */
  function RowsTotal(rows: seq<ReportRow>): int {
    if |rows| == 0 then 0 else rows[0].score + RowsTotal(rows[1..])
  }

  /**
    `getReport`: the projection keeps length and order, shows a missing
    answer as "", and the total is the sum of the question scores.
   */
  function GetReport(s: Session): (r: Report)
    ensures r.user == s.user && r.status == s.status
    ensures |r.questions| == |s.questions|
    ensures forall i :: 0 <= i < |s.questions| ==>
              && r.questions[i].id == s.questions[i].id
              && r.questions[i].text == s.questions[i].text
              && r.questions[i].score == s.questions[i].score
              && r.questions[i].difficulty == s.questions[i].difficulty
              && (s.questions[i].answer.Some? ==> r.questions[i].answer == s.questions[i].answer.value)
              && (s.questions[i].answer.None? ==> r.questions[i].answer == "")
    ensures r.totalScore == SumScores(s.questions)
  {
    Report(s.user, s.status, SumScores(s.questions), Rows(s.questions))
  }

  /** The report's total agrees with the scores shown in its own rows. */
  lemma {:induction false} ReportTotalMatchesRows(s: Session)
    ensures GetReport(s).totalScore == RowsTotal(GetReport(s).questions)
  {
    RowsSum(s.questions);
  }

  lemma {:induction false} RowsSum(qs: seq<Question>)
    ensures RowsTotal(Rows(qs)) == SumScores(qs)
  {
    if |qs| > 0 {
      RowsSum(qs[1..]);
      assert Rows(qs)[1..] == Rows(qs[1..]);
    }
  }

  /**
    If every per-question score lies in 0..10, the total lies in 0..10 times
    the count. The premise is not guaranteed: an answer stores whatever
    score the caller passes.
   */
  lemma {:induction false} TotalScoreBounded(qs: seq<Question>)
    requires forall i :: 0 <= i < |qs| ==> 0 <= qs[i].score <= 10
    ensures 0 <= SumScores(qs) <= 10 * |qs|
  {
    if |qs| > 0 {
      TotalScoreBounded(qs[1..]);
    }
  }

  /** The operations a caller can apply to a source-version manager. */
  datatype Op =
    | AnswerOp(text: Option<string>, score: int)
    | DecrementOp
    | GetCurrentOp
    | PauseOp
    | ResumeOp
    | SubmitOp

  function Apply(s: Session, op: Op): Session {
    match op
    case AnswerOp(t, sc) => Answer(s, t, sc).session
    case DecrementOp => DecrementTimer(s).session
    case GetCurrentOp => Lifecycle.GetCurrentQuestion(s).session
    case PauseOp => Lifecycle.Pause(s)
    case ResumeOp => Lifecycle.Resume(s)
    case SubmitOp => Lifecycle.Submit(s)
  }

  /**
    Every operation keeps the cursor within the list or just past it, never
    changes the number of questions, and a session becomes completed only by
    `submit` or with the cursor at or past the end.
   */
  lemma StepInvariant(s: Session, op: Op)
    requires CursorInRange(s)
    ensures CursorInRange(Apply(s, op))
    ensures |Apply(s, op).questions| == |s.questions|
    ensures s.status != Completed && Apply(s, op).status == Completed ==>
              op.SubmitOp? || !HasCurrent(Apply(s, op))
  {
  }

  /** No operation leads out of the completed state. */
  lemma CompletedIsAbsorbing(s: Session, op: Op)
    requires s.status == Completed
    ensures Apply(s, op).status == Completed
  {
  }
}
